=== FILE: README.md ===
# BSC yield agent — a Dafny model

This project models the engine of a yield agent for two lending protocols on BNB
Smart Chain, Venus and Aave. The agent:

- reads each protocol's markets and normalises them into rates (APR, compounded
  APY, utilization, collateral factors);
- reads the user's positions and health factors, and aggregates them into a
  portfolio;
- turns the rates into ranked recommendations (best yield, stable yield, rate
  arbitrage, rebalance);
- executes a recommendation's actions behind a gas-price gate, stopping the batch
  at the first failure and recording it in an action log;
- runs a periodic check that raises emergencies and can auto-execute the top
  recommendation;
- retries RPC calls with endpoint rotation and a linear back-off.

Every operation is a pure function over immutable values. The one exception is
the retry loop, a method with loop invariants. Chain reads arrive as parameters,
and a read that can throw is a `Fallible` (`Ok(value)` or `Throws(message)`). A
write is modelled as a plan, which is the list of chain calls the adapter makes,
and a `ChainEnv`, which says whether a signer exists, what allowance the token
reports, which call throws (if any) and what the receipt is. Numbers are `real`.
The two compounding exponents (10,512,000 blocks and 31,536,000 seconds per year)
stay symbolic in the lemmas.

Modules, one per file:

- `Common`: `Option`, `Fallible`, `Min`.
- `RealMath`: `Pow` and the Bernoulli inequality.
- `Types`: the records of the engine.
- `Config`: tokens, market tables, RPC endpoints and default thresholds.
- `Selection`: the two `reduce` idioms, keep-first-maximum and keep-last-maximum.
- `Adapter`: compounding, unit scaling, and the approve-then-write and
  failed-result shape shared by both protocols.
- `Venus` and `Aave`: the two protocol adapters.
- `Portfolio`: portfolio aggregation.
- `Strategy`: the recommendation engine.
- `Executor`: gas gate, dispatch and batches.
- `Provider`: endpoint rotation and retry.
- `Monitor`: the periodic check and the start/stop switch.
- `Scenarios`: concrete runs.

Some behaviours of the code are easy to miss; the model reproduces each of them:

- **The Venus reward APY is always 0.** The reward branch only runs when the
  Venus market table has an `XVS` entry, and it has none. So the 0.5 placeholder
  is unreachable with the shipped configuration. `Venus.RewardAPY` keeps the
  branch, parameterised by whether XVS is listed. `Venus.NoRewardWithConfiguredMarkets`
  shows it yields 0 with the real table.
- **A Venus account in shortfall reads as health factor 0.** The comptroller
  reports liquidity and shortfall exclusively, so `liquidity / shortfall` is
  0 / shortfall = 0. That is the same value as a failed read. The portfolio then
  maps it to 999, and the monitor's emergency band (a health factor above 0)
  skips it. `Venus.ShortfallReadsAsZero` states the first step, and
  `Portfolio.HealthFactor` the mapping.
- **The monitor's emergency check takes the minimum before excluding 0.** A
  Venus account with neither liquidity nor shortfall (no collateral), an account
  in shortfall, an error code or a failed read all report 0, which then masks a
  critical factor on the other protocol. The periodic check reproduces this
  rule (`Monitor.RunCheckMissesIdleEmergency`); the corrected rule, listed under
  Findings, is `Monitor.SaturatedEmergencyAlert`.
- **Three thresholds are fixed.** The rebalance threshold, the gas ceiling and
  the emergency threshold are read from `DEFAULT_STRATEGY_CONFIG`
  (src/lib/engine/strategy.ts:218, src/lib/engine/executor.ts:30,
  src/lib/engine/monitor.ts:69); none of the engine, executor or monitor takes a
  configuration. They are constants here, not parameters.

## Model

| member | source | states |
|---|---|---|
| Selection.KeepFirstMax | src/lib/engine/strategy.ts:88 | the `reduce` that replaces the best only on a strictly greater key returns a maximum that no earlier element reaches |
| Selection.KeepLastMax | src/lib/engine/strategy.ts:137 | the `reduce` that keeps the current element only when strictly greater returns a maximum that no later element reaches |
| Selection.FirstMaxUnique | src/lib/engine/strategy.ts:88 | the first-maximum specification determines a single index |
| Selection.LastMaxUnique | src/lib/engine/strategy.ts:137 | the last-maximum specification determines a single index |
| Selection.FirstAndLastMaxSplitOnTies | src/lib/engine/strategy.ts:137 | on a tie for the maximum, the first-max reduction stops at or before the earlier tied element and the last-max reduction at or after the later one |
| Strategy.RatesFor | src/lib/engine/strategy.ts:86 | the filter keeps exactly the rates quoted for the symbol |
| Strategy.Symbols | src/lib/engine/strategy.ts:129-134 | the grouping map's keys are distinct and are exactly the rates' symbols: every rate's symbol is a key and every key is some rate's symbol |
| Strategy.FindBestSupplyRate | src/lib/engine/strategy.ts:85-89 | null iff no rate has the symbol; otherwise a rate for the symbol whose net supply APY is at least every other's for the symbol, and it is the earliest such maximum |
| Strategy.FindBestBorrowRate | src/lib/engine/strategy.ts:92-96 | null iff no rate has the symbol; otherwise a rate for the symbol with the lowest net borrow APY, the earliest on ties |
| Strategy.BestYieldFor | src/lib/engine/strategy.ts:136-151 | a token gets a recommendation iff some rate for it exceeds 0.5%; its expected APY bounds every rate of the token; it is a single zero-amount supply on the last maximal rate's protocol, low risk iff that rate's token is a stablecoin |
| Strategy.CollectTargetsDistinct | src/lib/engine/strategy.ts:129-152 | generating per distinct symbol gives at most one recommendation per token |
| Strategy.BestYieldStrategy | src/lib/engine/strategy.ts:125-155 | at most one best-yield recommendation per token; each is that token's best-yield recommendation; every rate above 0.5% has its token's recommendation in the output |
| Strategy.StableYieldStrategy | src/lib/engine/strategy.ts:157-175 | empty iff there is no stablecoin rate; otherwise exactly one low-risk supply of the last maximal stablecoin rate, whose expected APY bounds every stablecoin rate |
| Strategy.ArbitrageOf | src/lib/engine/strategy.ts:195-209 | emits iff the supply and borrow protocols differ and the spread exceeds 1; then it supplies on the first, borrows on the second, both with amount 0, expected APY = spread, high risk |
| Strategy.ArbitrageFor | src/lib/engine/strategy.ts:189-193 | no arbitrage for a token quoted fewer than twice; otherwise the arbitrage between the last maximal supply rate and the last minimal borrow rate |
| Strategy.RateArbitrageStrategy | src/lib/engine/strategy.ts:177-214 | at most one arbitrage per token, each its token's arbitrage, and every token's arbitrage appears |
| Strategy.RebalanceFor | src/lib/engine/strategy.ts:218-241 | emits iff the position is a supply, a best rate exists on another protocol, and it beats the position's APY by more than 0.5; then it withdraws the whole amount from the old protocol and supplies it on the new one at low risk; the expected APY and the supply protocol are those of the token's best supply rate, which bounds all the token's rates |
| Strategy.CheckRebalance | src/lib/engine/strategy.ts:216-245 | every qualifying supply position has its rebalance in the output, and every output comes from a supply position |
| Strategy.InsertByAPY | src/lib/engine/strategy.ts:122 | insertion into a descending list keeps it descending and adds exactly one element |
| Strategy.SortByAPY | src/lib/engine/strategy.ts:122 | the sort yields a permutation in non-increasing expected-APY order |
| Strategy.SortByAPYKeepsSorted | src/lib/engine/strategy.ts:122 | an already descending list is returned unchanged |
| Strategy.RebalancesComeFrom | src/lib/engine/strategy.ts:115-122 | after the sort, every rebalance in the ranking comes from the rebalance generator |
| Strategy.GenerateRecommendations | src/lib/engine/strategy.ts:99-123 | the output is a descending permutation of the generators' concatenated output, with no rebalance for an empty user address |
| Portfolio.PriceTable | src/lib/engine/strategy.ts:40-43 | one non-negative price per supported token; for a listed Aave market whose oracle read succeeds the price times 1e8 is the raw read; an unlisted token or a failed read prices at 0 |
| Portfolio.Priced | src/lib/engine/strategy.ts:46-49 | each position's USD value is its amount times its token's price, 0 when unpriced |
| Portfolio.OfKind | src/lib/engine/strategy.ts:51-52 | the supply/borrow filter keeps exactly the positions of that kind |
| Portfolio.TotalsPartition | src/lib/engine/strategy.ts:54-55 | supplied plus borrowed USD is the total over all positions |
| Portfolio.WeightedSumBounds | src/lib/engine/strategy.ts:57-63 | the USD-weighted APY sum lies between the lowest and highest APY times the total |
| Portfolio.WeightedAPYBounds | src/lib/engine/strategy.ts:57-63 | a weighted APY over a positive total lies between the lowest and highest position APY |
| Portfolio.HealthFactor | src/lib/engine/strategy.ts:70 | 0 reads as 999 before the minimum; the minimum of two non-zero factors; at most 999 when either factor is; positive for non-negative factors |
| Portfolio.HealthFactorExamples | src/lib/engine/strategy.ts:70 | factors 2.0 and 999 give 2.0; two failed reads give 999 |
| Portfolio.NetAPY | src/lib/engine/strategy.ts:78 | equals the weighted supply APY without borrows and supply − borrow·(borrowed/supplied) otherwise; with borrows but nothing supplied the result is never finite, and NaN exactly when the borrow APY is 0 |
| Portfolio.Summarize | src/lib/engine/strategy.ts:46-81 | supplied (borrowed) USD is the sum over the supply (borrow) positions, and together they partition the priced positions; net worth is supplied minus borrowed; each weighted APY is the USD-weighted mean of its kind's APYs, 0 on an empty total; the net APY combines them as `NetAPY`; the health factor is the saturated minimum |
| Portfolio.GetPortfolio | src/lib/engine/strategy.ts:31-82 | the positions are the Venus then the Aave positions, each valued with the price table built from the oracle reads; the totals are the per-kind sums and net worth = supplied − borrowed; the weighted and net APYs are as in `Summarize`; the health factor is the saturated minimum |
| Adapter.CompoundedAPYZero | src/lib/protocols/venus.ts:72-73 | a zero rate compounds to a zero APY |
| Adapter.CompoundedAPYMonotone | src/lib/protocols/venus.ts:72-73 | the compounded APY is non-negative and monotone in the rate |
| Adapter.CompoundedAPYStrictlyMonotone | src/lib/protocols/aave.ts:64-65 | the compounded APY is strictly increasing in the rate |
| Adapter.CompoundedAPYAtLeastSimple | src/lib/protocols/venus.ts:68-73 | compounding yields at least the simple rate, strictly more for a positive rate and two or more periods |
| Adapter.FromWeiToWei | src/lib/protocols/venus.ts:211-212 | scaling down by 10^decimals and back up is the identity |
| Adapter.ApproveThen | src/lib/protocols/venus.ts:237-247 | the allowance is read first; an approval is sent iff it is needed; the main calls follow |
| Adapter.RunPlan | src/lib/protocols/venus.ts:214-271 | a call that throws inside the try gives a failed result with an empty hash, the echoed request and the message, after exactly the calls up to it; otherwise confirmed with the receipt's hash and gas |
| Venus.APYProperties | src/lib/protocols/venus.ts:68-73 | APR and APY are 0 at rate 0; APY is monotone and strictly increasing; APR is at most APY, strictly below it for a positive rate |
| Venus.RewardAPY | src/lib/protocols/venus.ts:75-93 | the reward is 0 or 0.5, positive iff XVS is listed, both the supply-speed and the borrow-speed reads succeed, and the supply speed is positive; a throwing borrow-speed read gives 0 |
| Venus.NoRewardWithConfiguredMarkets | src/lib/protocols/venus.ts:84-90 | with the configured market table the reward is always 0 |
| Venus.Utilization | src/lib/protocols/venus.ts:95-100 | for a non-empty market, utilization × (cash + borrows) = borrows × 100, i.e. borrows / (cash + borrows) as a percentage; between 0 and 100; 0 iff there are no borrows; 100 iff there are borrows and no cash |
| Venus.MarketRate | src/lib/protocols/venus.ts:44-128 | the supply and borrow APR and APY are those of the per-block rates read; net supply = supply + reward and net borrow = borrow − reward; the utilization is `Utilization` of the borrows and cash read, so in [0,100]; total supply × 10^decimals × 1e18 = vToken supply × exchange rate; total borrow and liquidity are the borrows and cash scaled by 10^decimals; liquidation threshold = collateral factor = mantissa / 1e18; APR at most APY |
| Venus.Rates | src/lib/protocols/venus.ts:26-42 | every rate is a Venus rate on a listed market; markets whose read throws are skipped; over a market list without repeats the rates have pairwise distinct symbols |
| Venus.RatesComplete | src/lib/protocols/venus.ts:26-42 | the rates are exactly the market rates of the listed markets whose read succeeded: each such market's rate is present, and every rate is one of them |
| Venus.HigherSupplyRateRanksHigher | src/lib/protocols/venus.ts:68-73 | a market with a higher per-block supply rate gets a strictly higher net supply APY |
| Venus.HealthFactor | src/lib/protocols/venus.ts:188-202 | 0 on an exception or error code; liquidity/shortfall with a shortfall; 999 with liquidity and no shortfall; 0 otherwise |
| Venus.ShortfallReadsAsZero | src/lib/protocols/venus.ts:190-198 | a shortfall account, whose liquidity the comptroller reports as 0, reads as health factor 0 |
| Venus.TokenPositions | src/lib/protocols/venus.ts:137-182 | nothing for a failed or erroring snapshot; a supply iff the vToken balance is positive, with the exchange-rate amount; a borrow iff the borrow balance is positive; APYs from the market rate |
| Venus.Positions | src/lib/protocols/venus.ts:130-186 | every position is a Venus position on a listed market |
| Venus.PositionsComplete | src/lib/protocols/venus.ts:130-186 | the positions are exactly those the listed markets report: every position of a listed market's snapshot is present, and every position comes from some listed market's snapshot |
| Venus.SupplyPlan | src/lib/protocols/venus.ts:214-247 | the market is entered first; BNB is minted with value, never approved; an ERC-20 is approved only when needed |
| Venus.RepayPlan | src/lib/protocols/venus.ts:362-388 | BNB repays with value; an ERC-20 is approved only when needed |
| Venus.WritePlan | src/lib/protocols/venus.ts:204-413 | only supply and repay of a non-BNB token ever approve, and only when the allowance is short |
| Venus.TokenWrite | src/lib/protocols/venus.ts:204-413 | throws without a signer or for an unlisted token, before any call; otherwise echoes the request, fails with an empty hash, and approves iff the allowance is below the amount in wei |
| Venus.ClaimRewards | src/lib/protocols/venus.ts:415-446 | throws without a signer; otherwise an XVS claim of amount 0, failed iff the claim call throws |
| Aave.APYProperties | src/lib/protocols/aave.ts:56-65 | APR and APY are 0 at rate 0; APY is monotone and strictly increasing; APR is at most APY, strictly below it for a positive rate |
| Aave.Utilization | src/lib/protocols/aave.ts:74-75 | borrow / aToken supply as a percentage, equal to borrow / (liquidity + borrow); 0 for an empty reserve; within [0,100] when borrows do not exceed supply |
| Aave.MarketRate | src/lib/protocols/aave.ts:49-99 | the supply APR and APY are those of the liquidity rate and the borrow ones those of the variable borrow rate; no reward, so net equals gross; total supply is the aToken supply scaled by 10^decimals; total borrow = variable + stable debt; liquidity = supply − borrow; the utilization is `Utilization` of that supply and borrow, so non-negative and at most 100 when borrow ≤ supply; LTV and liquidation threshold are basis points / 10000 |
| Aave.Rates | src/lib/protocols/aave.ts:31-47 | every rate is an Aave rate on a listed market; markets whose read throws are skipped; over a market list without repeats the rates have pairwise distinct symbols |
| Aave.RatesComplete | src/lib/protocols/aave.ts:31-47 | the rates are exactly the market rates of the listed reserves whose read succeeded: each such reserve's rate is present, and every rate is one of them |
| Aave.HigherSupplyRateRanksHigher | src/lib/protocols/aave.ts:56-65 | a reserve with a higher liquidity rate gets a strictly higher net supply APY |
| Aave.HealthFactor | src/lib/protocols/aave.ts:147-156 | raw / 1e18, 999 when that exceeds 1e10, 0 on an exception |
| Aave.TokenPriceUSD | src/lib/protocols/aave.ts:391-402 | 0 for an unlisted symbol or a failed read; otherwise raw / 1e8 |
| Aave.TokenPositions | src/lib/protocols/aave.ts:108-141 | a supply iff the aToken balance exceeds 0.0001; a borrow iff the variable debt exceeds 0.0001; nothing when the read fails |
| Aave.StableDebtIgnored | src/lib/protocols/aave.ts:111-112 | the positions do not depend on the stable debt |
| Aave.Positions | src/lib/protocols/aave.ts:101-145 | every position is an Aave position on a listed market |
| Aave.PositionsComplete | src/lib/protocols/aave.ts:101-145 | the positions are exactly those the listed reserves report: every position of a listed reserve's read is present, and every position comes from some listed reserve's read |
| Aave.WritePlan | src/lib/protocols/aave.ts:174-350 | only supply and repay ever approve, and only when the allowance is short |
| Aave.TokenWrite | src/lib/protocols/aave.ts:174-350 | throws without a signer or for an unlisted token, before any call; otherwise echoes the request, fails with an empty hash, and approves iff the allowance is below the amount in wei |
| Aave.ClaimRewards | src/lib/protocols/aave.ts:352-389 | throws without a signer; otherwise an AAVE_REWARDS claim of amount 0, failed iff the claim call throws |
| Executor.GasPriceGwei | src/lib/engine/executor.ts:27-28 | wei / 1e9, and 0 for a missing gas price |
| Executor.Rejected | src/lib/engine/executor.ts:31-40 | a failed result with an empty hash that echoes the request |
| Executor.ExecuteVenus | src/lib/engine/executor.ts:63-78 | each token action calls the same-named Venus write with the request's token and amount; a claim claims; an unknown action throws |
| Executor.ExecuteAave | src/lib/engine/executor.ts:80-95 | each token action calls the same-named Aave write with the request's token and amount; a claim claims; an unknown action throws |
| Executor.ExecuteAction | src/lib/engine/executor.ts:24-61 | above 5 gwei: failed, echoed, no chain call; an unknown protocol: failed and echoed; otherwise the protocol's dispatch; a returned result is never pending and has an empty hash when failed |
| Executor.GasGateIgnoresChain | src/lib/engine/executor.ts:26-41 | above the ceiling the result is the same for every chain and makes no call |
| Executor.StepResult | src/lib/engine/executor.ts:125-136 | an exception becomes a failed result carrying the step's action, token, amount and protocol |
| Executor.BatchFrom | src/lib/engine/executor.ts:112-138 | each result is its step's outcome; every result but the last succeeded; a run cut short ends in a failure |
| Executor.BatchResults | src/lib/engine/executor.ts:112-138 | no more results than actions; result i is the outcome of action i; all but the last succeeded; fewer results than actions means the last failed |
| Executor.BatchStopsAtFirstFailure | src/lib/engine/executor.ts:117-121 | when step k is the first failure, exactly k+1 steps run |
| Executor.BatchWithoutFailureCompletes | src/lib/engine/executor.ts:112-124 | without a failure every action runs |
| Executor.ExecuteBatch | src/lib/engine/executor.ts:98-142 | exactly one record is appended, earlier entries unchanged; it holds the full request list, the strategy, the reasoning and the batch results |
| Executor.ClearActionLog | src/lib/engine/executor.ts:148-150 | the log is empty afterwards |
| Provider.Rotate | src/lib/provider.ts:26-30 | the next index is the successor, wrapping to 0, always within the endpoint list |
| Provider.RotationsWrap | src/lib/provider.ts:27 | k rotations from index i land on (i + k) mod 6 |
| Provider.WithRetry | src/lib/provider.ts:33-52 | returns the first success after exactly that many calls; otherwise makes exactly maxRetries calls and raises the last error, or null when maxRetries is 0; one wait and one rotation between consecutive attempts, the j-th wait being delayMs·(j+1) |
| Monitor.LastN | src/lib/engine/monitor.ts:91 | keeps the last n entries, or all of them when there are fewer |
| Monitor.EmergencyAlert | src/lib/engine/monitor.ts:67-72 | as written: one alert iff 0 < min(venus, aave) < 1.1, carrying that minimum |
| Monitor.IdleProtocolMasksEmergency | src/lib/engine/monitor.ts:68-69 | as written, a factor of 1.05 on one protocol raises no alert when the other reports 0 |
| Monitor.SaturatedEmergencyAlert | src/lib/engine/monitor.ts:67-72 | corrected: at most one alert; for non-negative factors an alert iff either protocol reports a factor strictly between 0 and 1.1, carrying the smallest positive factor |
| Monitor.ValidActions | src/lib/engine/monitor.ts:82 | keeps exactly the actions with a positive amount |
| Monitor.ValidActionsKeepsPositive | src/lib/engine/monitor.ts:82 | a list whose amounts are all positive is unchanged |
| Monitor.ValidActionsIdempotent | src/lib/engine/monitor.ts:82 | filtering twice equals filtering once |
| Monitor.ValidActionsSingleton | src/lib/engine/monitor.ts:82 | a one-action list is kept iff its amount is positive |
| Monitor.ValidActionsCons | src/lib/engine/monitor.ts:82 | the filter of a list is the filter of its head followed by the filter of its tail |
| Monitor.ValidActionsDistributes | src/lib/engine/monitor.ts:82 | filtering a concatenation concatenates the filtered parts, so the kept actions keep their order and multiplicity |
| Monitor.Failed | src/lib/engine/monitor.ts:92-94 | the error list grows by exactly one entry, the old entries stay as a prefix, the new last entry is the message; every other status field and the log are unchanged |
| Monitor.Conclude | src/lib/engine/monitor.ts:78-91 | executes iff auto-execution is on, the top recommendation is not high risk and has a positive amount; only then sets the last-action time and appends one record of the positive-amount actions; stamps the check and keeps the last 10 errors |
| Monitor.AfterFailedRead | src/lib/engine/monitor.ts:53-94 | when a read throws: every value read before it is stored and nothing else but the errors changes; the errors are the old ones untruncated, then the as-written emergency alert when both health factors were read (so only when the recommendations read threw), then the first thrown message |
| Monitor.RunCheck | src/lib/engine/monitor.ts:46-97 | no signer: only the no-wallet error is appended. Success: every read is stored, the check is stamped, errors become the last 10 of old + the as-written emergency alert, and the batch runs as above. Failure: the errors and stored values are those of `AfterFailedRead`; no batch; times and pending recommendations unchanged |
| Monitor.RunCheckMissesIdleEmergency | src/lib/engine/monitor.ts:64-72 | a successful check with Venus factor 0 and Aave factor 1.05 records no alert, while the corrected rule raises Emergency(1.05) |
| Monitor.EmergencyTakesNoAction | src/lib/engine/monitor.ts:67-88 | whether and what the check executes is independent of the health factors |
| Monitor.IntervalOf | src/lib/engine/monitor.ts:102 | the given interval, or 5 minutes when missing or 0 |
| Monitor.Start | src/lib/engine/monitor.ts:99-114 | a no-op when running; otherwise sets running and schedules the check |
| Monitor.Stop | src/lib/engine/monitor.ts:116-123 | always clears running and the schedule, changing nothing else |
| Monitor.ConsistencyPreserved | src/lib/engine/monitor.ts:99-123 | a scheduled check exists exactly while running, initially and after every start, stop and check |
| Monitor.StartStopLaws | src/lib/engine/monitor.ts:99-123 | a second start is ignored; stop is idempotent; stop undoes a start of a stopped monitor |
| Scenarios.UsdtBestYield | src/lib/engine/strategy.ts:136-151 | USDT at 3.2% on Venus and 4.1% on Aave gives one best-yield supply on Aave expecting 4.1 |
| Scenarios.TieBreaksDiffer | src/lib/engine/strategy.ts:88 | on an exact tie the best-supply lookup picks the earlier rate and best yield the later |
| Scenarios.GasAboveCeiling | src/lib/engine/executor.ts:26-41 | 8 gwei against 5 fails the request with no chain call |
| Scenarios.BatchStopsAfterB | src/lib/engine/executor.ts:112-138 | a batch [A ok, B fails, C ok] yields two results and never runs C |
| Scenarios.RetryThreeTimes | src/lib/provider.ts:39-51 | three always-failing attempts make three calls and two rotations and raise the third error |

## Left out

- Reading the chain: contract calls, transaction submission and `wait()`, `getFeeData` and signer creation. Their outcomes are parameters: `Fallible` reads, a `ChainEnv` per write, and a `World` per batch step.
- Concatenating the Venus and Aave rates (`getAllRates`), and the `Promise.all` parallelism around every read. The rate list is an input of the strategy functions.
- Timing: the 2-second pause between batch steps, the retry back-off waits (`WithRetry` returns the schedule instead of sleeping), and the `setInterval` timer. `Start` records the interval; the check it fires at once is a separate `RunCheck`.
- Concurrent, overlapping `runCheck` calls on the shared state.
- `Date.now` and the random batch id. Both are parameters.
- IEEE-754 arithmetic: `Math.pow` with a 10.5M or 31.5M exponent, `Number` conversion of 256-bit integers, and `toFixed` rounding of the amount and supply strings. Numbers are exact reals.
- `parseUnits` rejecting a malformed amount string before the adapter's `try`. Amounts are already numbers here.
- The rationale strings. A recommendation carries the values the text interpolates (`Rationale`), not the text.
- `getStatus` returns a shallow copy that shares the nested health-factor object with the live state. Statuses are values here, so `getStatus` is the identity and has no member. `getActionLog` likewise returns the log itself.
- `getAccountSummary` on Aave. Nothing in the engine calls it.
- The retry's endpoint rotation does not reach the retried call: the adapters keep the provider they were built with. The attempt function is therefore independent of the endpoint index.
- Strategy.SortByAPY: the contract states sortedness and permutation but not stability. Stability means recommendations with equal expected APY keep their generator order; the insertion used does keep it.
- Venus.RewardAPY: the 0.5 placeholder is modelled as written, and no property depends on its value.

## Findings

| source | as written | input that shows it | evidently intended | confidence | as-written member | corrected member |
|---|---|---|---|---|---|---|
| src/lib/engine/monitor.ts:68-69 | the minimum of the raw Venus and Aave factors must be above 0 and below 1.1 | Venus factor 0 (an account with no Venus collateral, an account in shortfall, or a failed read) and Aave factor 1.05: the minimum is 0, so no emergency is raised (`Monitor.IdleProtocolMasksEmergency`, and for a whole check `Monitor.RunCheckMissesIdleEmergency`) | raise the emergency when either protocol reports a positive factor below 1.1, reading 0 as "no debt" the way the portfolio does (src/lib/engine/strategy.ts:70) | not executed | Monitor.EmergencyAlert | Monitor.SaturatedEmergencyAlert |

=== FILE: aave.dfy ===
/** The Aave V3 adapter: annual rates scaled by RAY (1e27) and compounded per
    second, basis-point risk parameters, 8-decimal oracle prices, and the write calls. */
module Aave {
  import opened Common
  import opened Types
  import opened Config
  import opened RealMath
  import opened Adapter

  const RAY: real := 1000000000000000000000000000.0
  const SECONDS_PER_YEAR: nat := 31536000
  const WAD: real := 1000000000000000000.0
  /** Oracle prices carry 8 decimals. */
  const PRICE_UNIT: real := 100000000.0
  /** Balances at or below this many token units are dust. */
  const DUST: real := 0.0001

  /** `getReserveData` (the parts used) and `getReserveConfigurationData`. */
  datatype ReserveData = ReserveData(
    liquidityRate: nat,
    variableBorrowRate: nat,
    totalAToken: nat,
    totalStableDebt: nat,
    totalVariableDebt: nat)

  datatype ReserveConfig = ReserveConfig(ltv: nat, liquidationThreshold: nat)

  datatype MarketInput = MarketInput(reserve: ReserveData, config: ReserveConfig)

  function APR(rayRate: nat): real {
    (rayRate as real) / RAY * 100.0
  }

  function APY(rayRate: nat): real {
    CompoundedAPY((rayRate as real) / RAY / (SECONDS_PER_YEAR as real), SECONDS_PER_YEAR)
  }

  /** r = raw/1e27, APR = r*100 and APY = ((1 + r/S)^S - 1)*100: APY is 0 at a zero
      rate, grows with the rate, and is never below the APR (strictly above for a
      positive rate). */
  lemma APYProperties(raw1: nat, raw2: nat)
    requires raw1 <= raw2
    ensures APY(0) == 0.0 && APR(0) == 0.0
    ensures 0.0 <= APY(raw1) <= APY(raw2)
    ensures raw1 < raw2 ==> APY(raw1) < APY(raw2)
    ensures APR(raw1) <= APY(raw1)
    ensures raw1 > 0 ==> APR(raw1) < APY(raw1)
  {
    var s := SECONDS_PER_YEAR as real;
    var r1, r2 := (raw1 as real) / RAY / s, (raw2 as real) / RAY / s;
    CompoundedAPYZero(SECONDS_PER_YEAR);
    CompoundedAPYMonotone(r1, r2, SECONDS_PER_YEAR);
    if raw1 < raw2 {
      CompoundedAPYStrictlyMonotone(r1, r2, SECONDS_PER_YEAR);
    }
    CompoundedAPYAtLeastSimple(r1, SECONDS_PER_YEAR);
    assert s * r1 == (raw1 as real) / RAY;
  }

  /** totalBorrow / totalAToken as a percentage, 0 for an empty reserve. */
  function Utilization(totalAToken: real, totalBorrow: real): (u: real)
    ensures totalBorrow >= 0.0 ==> u >= 0.0
    ensures 0.0 <= totalBorrow <= totalAToken ==> u <= 100.0
    ensures totalAToken > 0.0 ==> u == totalBorrow / ((totalAToken - totalBorrow) + totalBorrow) * 100.0
    ensures totalAToken <= 0.0 ==> u == 0.0
  {
    if totalAToken > 0.0 then (totalBorrow / totalAToken) * 100.0 else 0.0
  }

  /** One reserve's normalised rate: no reward program, LTV and liquidation
      threshold from basis points. */
  function MarketRate(token: Token, input: MarketInput): (r: Rate)
    ensures r.protocol == Aave && r.token == token
    ensures r.supplyAPY == APY(input.reserve.liquidityRate) && r.borrowAPY == APY(input.reserve.variableBorrowRate)
    ensures r.supplyAPR == APR(input.reserve.liquidityRate) && r.borrowAPR == APR(input.reserve.variableBorrowRate)
    ensures r.rewardAPY == 0.0
    ensures r.netSupplyAPY == r.supplyAPY && r.netBorrowAPY == r.borrowAPY
    ensures r.totalBorrow == FromWei(input.reserve.totalVariableDebt, token.decimals)
                           + FromWei(input.reserve.totalStableDebt, token.decimals)
    ensures r.liquidity == FromWei(input.reserve.totalAToken, token.decimals) - r.totalBorrow
    ensures r.totalSupply == FromWei(input.reserve.totalAToken, token.decimals)
    ensures r.utilization == Utilization(r.totalSupply, r.totalBorrow)
    ensures r.utilization >= 0.0
    ensures r.totalBorrow <= r.totalSupply ==> r.utilization <= 100.0
    ensures r.collateralFactor == (input.config.ltv as real) / 10000.0
    ensures r.liquidationThreshold == (input.config.liquidationThreshold as real) / 10000.0
    ensures 0.0 <= r.supplyAPR <= r.supplyAPY && 0.0 <= r.borrowAPR <= r.borrowAPY
  {
    var d := input.reserve;
    APYProperties(d.liquidityRate, d.liquidityRate);
    APYProperties(d.variableBorrowRate, d.variableBorrowRate);
    var totalAToken := FromWei(d.totalAToken, token.decimals);
    var totalBorrow := FromWei(d.totalVariableDebt, token.decimals) + FromWei(d.totalStableDebt, token.decimals);
    var supplyAPY := APY(d.liquidityRate);
    var borrowAPY := APY(d.variableBorrowRate);
    Rate(
      Aave, token,
      supplyAPY, borrowAPY,
      APR(d.liquidityRate), APR(d.variableBorrowRate),
      0.0, supplyAPY, borrowAPY,
      totalAToken, totalBorrow,
      Utilization(totalAToken, totalBorrow),
      totalAToken - totalBorrow,
      (input.config.ltv as real) / 10000.0,
      (input.config.liquidationThreshold as real) / 10000.0)
  }

  /** A reserve with a higher liquidity rate ranks strictly higher in net supply
      APY, the key every strategy compares. */
  lemma HigherSupplyRateRanksHigher(token: Token, a: MarketInput, b: MarketInput)
    requires a.reserve.liquidityRate < b.reserve.liquidityRate
    ensures MarketRate(token, a).netSupplyAPY < MarketRate(token, b).netSupplyAPY
  {
    APYProperties(a.reserve.liquidityRate, b.reserve.liquidityRate);
  }

  /** Per-token rate reads after retries: the symbols whose read failed are skipped. */
  function Rates(markets: seq<string>, fetched: string -> Fallible<MarketInput>): (rs: seq<Rate>)
    ensures |rs| <= |markets|
    ensures forall i :: 0 <= i < |rs| ==> rs[i].protocol == Aave && rs[i].token.symbol in markets
    ensures Distinct(markets) ==> forall i, j :: 0 <= i < j < |rs| ==> rs[i].token.symbol != rs[j].token.symbol
    decreases |markets|
  {
    if |markets| == 0 then []
    else
      var sym := markets[0];
      var rest := Rates(markets[1..], fetched);
      assert Distinct(markets) ==> sym !in markets[1..];
      if sym in TOKENS && TOKENS[sym].symbol == sym && fetched(sym).Ok? then
        [MarketRate(TOKENS[sym], fetched(sym).value)] + rest
      else rest
  }

  /** `r` is the rate the listed reserve `sym` yields when its read succeeds. */
  predicate QuotedBy(r: Rate, sym: string, fetched: string -> Fallible<MarketInput>) {
    sym in TOKENS && TOKENS[sym].symbol == sym && fetched(sym).Ok? && r == MarketRate(TOKENS[sym], fetched(sym).value)
  }

  /** The rates are exactly those of the listed reserves whose read succeeded: a
      reserve whose read throws contributes nothing, every other one its rate. */
  lemma {:induction false} RatesComplete(markets: seq<string>, fetched: string -> Fallible<MarketInput>)
    ensures forall sym, r :: sym in markets && QuotedBy(r, sym, fetched) ==> r in Rates(markets, fetched)
    ensures forall r :: r in Rates(markets, fetched) ==> exists sym :: sym in markets && QuotedBy(r, sym, fetched)
    decreases |markets|
  {
    if |markets| > 0 {
      RatesComplete(markets[1..], fetched);
      forall sym | sym in markets ensures sym == markets[0] || sym in markets[1..] {}
      forall r | r in Rates(markets, fetched)
        ensures exists sym :: sym in markets && QuotedBy(r, sym, fetched)
      {
        if r in Rates(markets[1..], fetched) {
          var sym :| sym in markets[1..] && QuotedBy(r, sym, fetched);
          assert sym in markets;
        } else {
          assert markets[0] in markets;
        }
      }
    }
  }

  /** The pool's health factor (1e18-scaled), 999 once it exceeds 1e10 (the pool
      reports the maximum integer for an account without debt), 0 on a failed read. */
  function HealthFactor(read: Fallible<nat>): (hf: real)
    ensures 0.0 <= hf <= 10000000000.0
    ensures read.Throws? ==> hf == 0.0
    ensures read.Ok? && (read.value as real) / WAD > 10000000000.0 ==> hf == 999.0
    ensures read.Ok? && (read.value as real) / WAD <= 10000000000.0 ==> hf == (read.value as real) / WAD
  {
    match read
    case Throws(_) => 0.0
    case Ok(raw) =>
      var hf := (raw as real) / WAD;
      if hf > 10000000000.0 then 999.0 else hf
  }

  /** The oracle's USD price: 0 for a symbol without an Aave market or a failed
      read, else the 8-decimal answer scaled down. */
  function TokenPriceUSD(symbol: string, read: Fallible<nat>): (price: real)
    ensures price >= 0.0
    ensures symbol !in AAVE_MARKETS || read.Throws? ==> price == 0.0
    ensures symbol in AAVE_MARKETS && read.Ok? ==> price * PRICE_UNIT == read.value as real
  {
    if symbol !in AAVE_MARKETS then 0.0
    else
      match read
      case Throws(_) => 0.0
      case Ok(raw) => (raw as real) / PRICE_UNIT
  }

  /** `getUserReserveData`: aToken balance and the two debts, in raw units. */
  datatype UserReserve = UserReserve(currentATokenBalance: nat, currentStableDebt: nat, currentVariableDebt: nat)

  datatype TokenRead = TokenRead(user: Fallible<UserReserve>, supplyMarket: Fallible<MarketInput>,
                                 borrowMarket: Fallible<MarketInput>)

  predicate HasKind(ps: seq<Position>, kind: PositionKind) {
    exists i :: 0 <= i < |ps| && ps[i].kind == kind
  }

  /** The positions one token contributes: supply above dust, variable debt above
      dust; stable debt is not reported. A thrown read skips the rest of the token. */
  function TokenPositions(token: Token, read: TokenRead): (ps: seq<Position>)
    ensures |ps| <= 2
    ensures forall i :: 0 <= i < |ps| ==> ps[i].protocol == Aave && ps[i].token == token
    ensures HasKind(ps, SupplyPosition) <==>
      read.user.Ok? && FromWei(read.user.value.currentATokenBalance, token.decimals) > DUST
      && read.supplyMarket.Ok?
    ensures HasKind(ps, BorrowPosition) <==>
      read.user.Ok? && FromWei(read.user.value.currentVariableDebt, token.decimals) > DUST
      && read.borrowMarket.Ok?
      && (FromWei(read.user.value.currentATokenBalance, token.decimals) > DUST ==> read.supplyMarket.Ok?)
    ensures forall i :: 0 <= i < |ps| && ps[i].kind == SupplyPosition ==>
      ps[i].amount == FromWei(read.user.value.currentATokenBalance, token.decimals)
      && ps[i].apy == MarketRate(token, read.supplyMarket.value).supplyAPY
    ensures forall i :: 0 <= i < |ps| && ps[i].kind == BorrowPosition ==>
      ps[i].amount == FromWei(read.user.value.currentVariableDebt, token.decimals)
      && ps[i].apy == MarketRate(token, read.borrowMarket.value).borrowAPY
  {
    match read.user
    case Throws(_) => []
    case Ok(u) =>
      var supplied := FromWei(u.currentATokenBalance, token.decimals);
      var owed := FromWei(u.currentVariableDebt, token.decimals);
      if supplied > DUST && read.supplyMarket.Throws? then []
      else
        var supply :=
          if supplied > DUST then
            [Position(Aave, token, SupplyPosition, supplied, 0.0,
                      MarketRate(token, read.supplyMarket.value).supplyAPY, 0.0)]
          else [];
        var borrow :=
          if owed > DUST && read.borrowMarket.Ok? then
            [Position(Aave, token, BorrowPosition, owed, 0.0,
                      MarketRate(token, read.borrowMarket.value).borrowAPY, 0.0)]
          else [];
        var ps := supply + borrow;
        assert |supply| > 0 ==> ps[0] == supply[0];
        assert |borrow| > 0 ==> ps[|supply|] == borrow[0];
        ps
  }

  /** Stable-rate debt never shows up in the positions. */
  lemma StableDebtIgnored(token: Token, read: TokenRead, stableDebt: nat)
    requires read.user.Ok?
    ensures TokenPositions(token, read) ==
      TokenPositions(token, read.(user := Ok(read.user.value.(currentStableDebt := stableDebt))))
  {
  }

  /** All positions, reserve by reserve in table order. */
  function Positions(markets: seq<string>, fetched: string -> TokenRead): (ps: seq<Position>)
    ensures forall i :: 0 <= i < |ps| ==> ps[i].protocol == Aave && ps[i].token.symbol in markets
    decreases |markets|
  {
    if |markets| == 0 then []
    else
      var sym := markets[0];
      var here := if sym in TOKENS && TOKENS[sym].symbol == sym then TokenPositions(TOKENS[sym], fetched(sym)) else [];
      here + Positions(markets[1..], fetched)
  }

  /** `p` is one of the positions the listed reserve `sym` reports. */
  predicate ReportedBy(p: Position, sym: string, fetched: string -> TokenRead) {
    sym in TOKENS && TOKENS[sym].symbol == sym && p in TokenPositions(TOKENS[sym], fetched(sym))
  }

  /** The positions are exactly those of the listed reserves: every position a
      listed reserve reports is present, and every position comes from one. */
  lemma {:induction false} PositionsComplete(markets: seq<string>, fetched: string -> TokenRead)
    ensures forall sym, p :: sym in markets && ReportedBy(p, sym, fetched) ==> p in Positions(markets, fetched)
    ensures forall p :: p in Positions(markets, fetched) ==> exists sym :: sym in markets && ReportedBy(p, sym, fetched)
    decreases |markets|
  {
    if |markets| > 0 {
      PositionsComplete(markets[1..], fetched);
      forall sym | sym in markets ensures sym == markets[0] || sym in markets[1..] {}
      forall p | p in Positions(markets, fetched)
        ensures exists sym :: sym in markets && ReportedBy(p, sym, fetched)
      {
        if p in Positions(markets[1..], fetched) {
          var sym :| sym in markets[1..] && ReportedBy(p, sym, fetched);
          assert sym in markets;
        } else {
          assert markets[0] in markets;
        }
      }
    }
  }

  // ---- write calls ----

  /** The chain calls each write makes, given the allowance test's answer. Supply
      and repay approve the pool only when the allowance is short; supply also
      enables the asset as collateral after the supply transaction. */
  function WritePlan(action: ActionKind, needsApproval: bool): (plan: seq<ChainCall>)
    requires !action.OtherAction?
    ensures |plan| >= 1
    ensures Approve in plan <==> (action == Supply || action == Repay) && needsApproval
  {
    match action
    case Supply => ApproveThen(needsApproval, [PoolSupply, SetCollateral])
    case Withdraw => [PoolWithdraw]
    case Borrow => [PoolBorrow]
    case Repay => ApproveThen(needsApproval, [PoolRepay])
    case Claim => [ClaimAllRewards]
  }

  /** supply / withdraw / borrow / repay on a token: throw without a signer or for
      an unsupported token, before any chain call; otherwise run the plan. */
  function TokenWrite(action: ActionKind, symbol: string, amount: real, env: ChainEnv): (s: Step)
    requires action in {Supply, Withdraw, Borrow, Repay}
    ensures !env.wallet ==> s == Threw(NO_WALLET)
    ensures env.wallet && symbol !in AAVE_MARKETS ==> s == Threw(UnsupportedToken(symbol))
    ensures env.wallet && symbol in AAVE_MARKETS ==>
      && s.Returned?
      && s.result.action == action && s.result.token == symbol
      && s.result.amount == amount && s.result.protocol == Aave
      && (s.result.status == Failed ==> s.result.hash == "")
      && (Approve in s.calls ==>
            (action == Supply || action == Repay)
            && NeedsApproval(env.allowance, ToWei(amount, TOKENS[symbol].decimals)))
      && (s.result.status == Confirmed ==>
            (Approve in s.calls <==>
               (action == Supply || action == Repay)
               && NeedsApproval(env.allowance, ToWei(amount, TOKENS[symbol].decimals))))
  {
    if !env.wallet then Threw(NO_WALLET)
    else if symbol !in AAVE_MARKETS then Threw(UnsupportedToken(symbol))
    else
      var token := TOKENS[symbol];
      var needsApproval := NeedsApproval(env.allowance, ToWei(amount, token.decimals));
      var plan := WritePlan(action, needsApproval);
      var s := RunPlan(plan, env, Aave, action, symbol, amount);
      assert s.calls <= plan;
      s
  }

  /** claimAllRewardsToSelf: needs only a signer; the result names AAVE_REWARDS
      with amount 0. */
  function ClaimRewards(env: ChainEnv): (s: Step)
    ensures !env.wallet ==> s == Threw(NO_WALLET)
    ensures env.wallet ==>
      && s.Returned?
      && s.result.action == Claim && s.result.token == "AAVE_REWARDS"
      && s.result.amount == 0.0 && s.result.protocol == Aave
      && (s.result.status == Failed <==> env.failure.Some? && env.failure.value.step == 0)
      && (s.result.status == Failed ==> s.result.hash == "")
  {
    if !env.wallet then Threw(NO_WALLET)
    else RunPlan(WritePlan(Claim, false), env, Aave, Claim, "AAVE_REWARDS", 0.0)
  }
}

=== FILE: adapter.dfy ===
/** What the two protocol adapters share: the compounding formula, unit scaling,
    and the shape of a write call. A write checks its configuration (signer, token)
    before touching the chain and throws if it is missing; once inside its `try`
    it makes a planned sequence of chain calls, and the first one that throws turns
    the whole call into a `Failed` result with an empty hash. */
module Adapter {
  import opened Common
  import opened Types
  import opened RealMath

  /** `periods` compoundings of the per-period fractional rate `r`, as a percentage. */
  function CompoundedAPY(r: real, periods: nat): real {
    (Pow(1.0 + r, periods) - 1.0) * 100.0
  }

  lemma CompoundedAPYZero(periods: nat)
    ensures CompoundedAPY(0.0, periods) == 0.0
  {
    PowOne(periods);
  }

  /** APY grows with the rate. */
  lemma CompoundedAPYMonotone(r1: real, r2: real, periods: nat)
    requires 0.0 <= r1 <= r2
    ensures 0.0 <= CompoundedAPY(r1, periods) <= CompoundedAPY(r2, periods)
  {
    PowMonotone(1.0 + r1, 1.0 + r2, periods);
    PowAtLeastOne(1.0 + r1, periods);
  }

  lemma CompoundedAPYStrictlyMonotone(r1: real, r2: real, periods: nat)
    requires 0.0 <= r1 < r2
    requires periods >= 1
    ensures CompoundedAPY(r1, periods) < CompoundedAPY(r2, periods)
  {
    PowStrictlyMonotone(1.0 + r1, 1.0 + r2, periods);
  }

  /** Compounding never yields less than the simple rate `periods * r`, and yields
      strictly more once there are two periods or more and the rate is positive. */
  lemma CompoundedAPYAtLeastSimple(r: real, periods: nat)
    requires r >= 0.0
    ensures CompoundedAPY(r, periods) >= (periods as real) * r * 100.0
    ensures r > 0.0 && periods >= 2 ==> CompoundedAPY(r, periods) > (periods as real) * r * 100.0
  {
    Bernoulli(r, periods);
    if r > 0.0 && periods >= 2 {
      BernoulliStrict(r, periods);
    }
  }

  /** 10^decimals as a real. */
  function Unit(decimals: nat): (u: real)
    ensures u >= 1.0
  {
    PowAtLeastOne(10.0, decimals);
    Pow(10.0, decimals)
  }

  /** A raw on-chain integer amount in human token units. */
  function FromWei(raw: nat, decimals: nat): real {
    (raw as real) / Unit(decimals)
  }

  /** A human token amount as the raw integer amount it encodes. */
  function ToWei(amount: real, decimals: nat): real {
    amount * Unit(decimals)
  }

  lemma FromWeiToWei(raw: nat, decimals: nat)
    ensures ToWei(FromWei(raw, decimals), decimals) == raw as real
  {
  }

  /** A chain call an adapter makes, in the order it makes them. */
  datatype ChainCall =
    | EnterMarkets
    | ReadAllowance
    | Approve
    | MintNative
    | Mint
    | RedeemUnderlying
    | VenusBorrow
    | RepayNative
    | RepayBorrow
    | ClaimVenus
    | PoolSupply
    | SetCollateral
    | PoolWithdraw
    | PoolBorrow
    | PoolRepay
    | ClaimAllRewards

  datatype Receipt = Receipt(hash: string, gasUsed: nat)

  /** The `step`-th call of a plan (counting from 0) throws `message`. */
  datatype ChainFailure = ChainFailure(step: nat, message: string)

  /** What the outside world answers to a write: whether a signer is configured,
      the spender allowance the token contract reports, which call (if any) throws,
      and the receipt of the main transaction. */
  datatype ChainEnv = ChainEnv(wallet: bool, allowance: nat, failure: Option<ChainFailure>, receipt: Receipt)

  /** A write either throws before its `try` or returns a result after `calls`. */
  datatype Step = Returned(result: TxResult, calls: seq<ChainCall>) | Threw(message: string)

  const NO_WALLET: string := "No wallet configured"

  function UnsupportedToken(symbol: string): string {
    "Unsupported token: " + symbol
  }

  /** An approval is sent only when the allowance does not already cover the amount. */
  predicate NeedsApproval(allowance: nat, amountWei: real) {
    (allowance as real) < amountWei
  }

  /** Approval-then-transfer: read the allowance, approve if it is short, then `main`. */
  function ApproveThen(needsApproval: bool, main: seq<ChainCall>): (plan: seq<ChainCall>)
    ensures Approve in plan <==> needsApproval || Approve in main
    ensures |plan| > |main| && plan[0] == ReadAllowance
    ensures plan[|plan| - |main|..] == main
  {
    [ReadAllowance] + (if needsApproval then [Approve] else []) + main
  }

  /** Runs `plan` inside the adapter's `try`: the first call that throws ends the
      call with a `Failed` result echoing the request; otherwise it is `Confirmed`
      with the main transaction's receipt. */
  function RunPlan(plan: seq<ChainCall>, env: ChainEnv, protocol: ProtocolId,
                   action: ActionKind, token: string, amount: real): (s: Step)
    ensures s.Returned?
    ensures s.result.action == action && s.result.token == token
    ensures s.result.amount == amount && s.result.protocol == protocol
    ensures s.result.status != Pending
    ensures s.result.status == Failed <==> env.failure.Some? && env.failure.value.step < |plan|
    ensures s.result.status == Failed ==>
      && s.result.hash == ""
      && s.result.gasUsed == None
      && s.result.error == Some(Thrown(env.failure.value.message))
      && s.calls == plan[..env.failure.value.step + 1]
    ensures s.result.status == Confirmed ==>
      && s.result.hash == env.receipt.hash
      && s.result.gasUsed == Some(env.receipt.gasUsed)
      && s.result.error == None
      && s.calls == plan
  {
    match env.failure
    case Some(f) =>
      if f.step < |plan| then
        Returned(TxResult("", Failed, action, token, amount, protocol, None, Some(Thrown(f.message))),
                 plan[..f.step + 1])
      else
        Returned(TxResult(env.receipt.hash, Confirmed, action, token, amount, protocol,
                          Some(env.receipt.gasUsed), None), plan)
    case None =>
      Returned(TxResult(env.receipt.hash, Confirmed, action, token, amount, protocol,
                        Some(env.receipt.gasUsed), None), plan)
  }
}

=== FILE: common.dfy ===
/** Failure-carrying wrappers shared by every module of the model. */
module Common {

  /** A value that may be absent (the source's `null` / `undefined`). */
  datatype Option<+T> = None | Some(value: T)

  /** The outcome of a call that may throw: either a value or the thrown message. */
  datatype Fallible<+T> = Ok(value: T) | Throws(message: string)

  function Min(a: real, b: real): (m: real)
    ensures m <= a && m <= b
    ensures m == a || m == b
  {
    if a <= b then a else b
  }

  /** No element occurs twice. */
  predicate Distinct<T(==)>(xs: seq<T>) {
    forall i, j :: 0 <= i < j < |xs| ==> xs[i] != xs[j]
  }

  /** The head and tail of a concatenation with a non-empty left part. */
  lemma ConcatHeadTail<T>(a: seq<T>, b: seq<T>)
    requires |a| > 0
    ensures (a + b)[0] == a[0] && (a + b)[1..] == a[1..] + b
    ensures a == [a[0]] + a[1..] && a + b == [a[0]] + (a[1..] + b)
  {
  }

  lemma ConcatAssoc<T>(a: seq<T>, b: seq<T>, c: seq<T>)
    ensures a + (b + c) == (a + b) + c
  {
  }
}

=== FILE: config.dfy ===
/** The static configuration the engine reads: supported tokens, the markets each
    protocol lists, the RPC endpoints and the default thresholds. */
module Config {
  import opened Types

  const BNB := Token("BNB", "BNB", "0xbb4CdB9CBd36B01bD1cBaEBF2De08d9173bc095c", 18, false)
  const ETH := Token("ETH", "Ethereum", "0x2170Ed0880ac9A755fd29B2688956BD959F933F8", 18, false)
  const BTCB := Token("BTCB", "Bitcoin BEP2", "0x7130d2A12B9BCbFAe4f2634d864A1Ee1Ce3Ead9c", 18, false)
  const USDT := Token("USDT", "Tether USD", "0x55d398326f99059fF775485246999027B3197955", 18, true)
  const USDC := Token("USDC", "USD Coin", "0x8AC76a51cc950d9822D68b83fE1Ad97B32Cd580d", 18, true)
  const FDUSD := Token("FDUSD", "First Digital USD", "0xc5f0f7b66764F6ec8C8Dff7BA683102295E16409", 18, true)

  /** Supported tokens by symbol. */
  const TOKENS: map<string, Token> := map[
    "BNB" := BNB, "ETH" := ETH, "BTCB" := BTCB,
    "USDT" := USDT, "USDC" := USDC, "FDUSD" := FDUSD]

  /** Symbols with a Venus core-pool vToken, in the table's iteration order. */
  const VENUS_MARKETS: seq<string> := ["BNB", "USDT", "USDC", "BTCB", "ETH", "FDUSD"]

  /** Symbols with an Aave underlying asset, in the table's iteration order. */
  const AAVE_MARKETS: seq<string> := ["BNB", "USDT", "USDC", "BTCB", "ETH", "FDUSD"]

  /** The fail-over list of RPC endpoints. */
  const RPC_URLS: seq<string> := [
    "https://bsc-dataseed1.binance.org",
    "https://bsc-dataseed2.binance.org",
    "https://bsc-dataseed3.binance.org",
    "https://bsc-dataseed4.binance.org",
    "https://bsc-dataseed1.defibit.io",
    "https://bsc-dataseed2.defibit.io"]

  /** 50 bps rebalance threshold, 5 gwei gas ceiling, health-factor emergency at 1.1,
      a check every five minutes. */
  const DEFAULT_CONFIG := StrategyConfig(50.0, 5.0, 1.1, 5 * 60 * 1000)
}

=== FILE: executor.dfy ===
/** The executor: a gas admission gate, dispatch of a request to the protocol
    adapter it names, and the batch loop that stops at the first failed step and
    appends one record to the action log. */
module Executor {
  import opened Common
  import opened Types
  import opened Config
  import opened Adapter
  import VenusPool = Venus
  import AavePool = Aave

  /** The gas ceiling in gwei. It is always the default configuration's. */
  const MAX_GAS_PRICE: real := DEFAULT_CONFIG.maxGasPrice
  const WEI_PER_GWEI: real := 1000000000.0

  /** What one request sees: the fee-data read (which may throw, and whose gas
      price may be missing) and the chain the adapter writes to. */
  datatype World = World(feeData: Fallible<Option<nat>>, chain: ChainEnv)

  /** The gas price in gwei; a missing price reads as 0. */
  function GasPriceGwei(gasPrice: Option<nat>): (gwei: real)
    ensures gwei >= 0.0
    ensures gasPrice.None? ==> gwei == 0.0
    ensures gasPrice.Some? ==> gwei * WEI_PER_GWEI == gasPrice.value as real
  {
    match gasPrice
    case None => 0.0
    case Some(wei) => wei as real / WEI_PER_GWEI
  }

  function UnknownAction(name: string): string {
    "Unknown action: " + name
  }

  /** A `failed` result that echoes the request and carries no hash. */
  function Rejected(request: TxRequest, error: TxError): (r: TxResult)
    ensures r.status == Failed && r.hash == "" && r.error == Some(error) && r.gasUsed == None
    ensures r.action == request.action && r.token == request.token
    ensures r.amount == request.amount && r.protocol == request.protocol
  {
    TxResult("", Failed, request.action, request.token, request.amount, request.protocol, None, Some(error))
  }

  /** Venus dispatch: each token action calls the same-named adapter write with the
      request's token and amount, a claim claims XVS, any other action throws. */
  function ExecuteVenus(request: TxRequest, env: ChainEnv): (s: Step)
    ensures request.action.OtherAction? ==> s == Threw(UnknownAction(request.action.name))
    ensures request.action == Claim ==> s == VenusPool.ClaimRewards(env)
    ensures request.action in {Supply, Withdraw, Borrow, Repay} ==>
      s == VenusPool.TokenWrite(request.action, request.token, request.amount, env)
    ensures s.Returned? ==> s.result.protocol == Venus && s.result.action == request.action
  {
    match request.action
    case OtherAction(name) => Threw(UnknownAction(name))
    case Claim => VenusPool.ClaimRewards(env)
    case _ => VenusPool.TokenWrite(request.action, request.token, request.amount, env)
  }

  /** Aave dispatch, the same shape as the Venus one. */
  function ExecuteAave(request: TxRequest, env: ChainEnv): (s: Step)
    ensures request.action.OtherAction? ==> s == Threw(UnknownAction(request.action.name))
    ensures request.action == Claim ==> s == AavePool.ClaimRewards(env)
    ensures request.action in {Supply, Withdraw, Borrow, Repay} ==>
      s == AavePool.TokenWrite(request.action, request.token, request.amount, env)
    ensures s.Returned? ==> s.result.protocol == Aave && s.result.action == request.action
  {
    match request.action
    case OtherAction(name) => Threw(UnknownAction(name))
    case Claim => AavePool.ClaimRewards(env)
    case _ => AavePool.TokenWrite(request.action, request.token, request.amount, env)
  }

  /** One request: refuse it above the gas ceiling, refuse an unknown protocol, and
      otherwise hand it to the named adapter. The fee-data read happens first and
      its exception, like an unknown action's, escapes to the caller. */
  function ExecuteAction(request: TxRequest, world: World): (s: Step)
    ensures world.feeData.Throws? ==> s == Threw(world.feeData.message)
    ensures world.feeData.Ok? && GasPriceGwei(world.feeData.value) > MAX_GAS_PRICE ==>
      s == Returned(Rejected(request, GasTooHigh(GasPriceGwei(world.feeData.value), MAX_GAS_PRICE)), [])
    ensures world.feeData.Ok? && GasPriceGwei(world.feeData.value) <= MAX_GAS_PRICE ==>
      && (request.protocol.OtherProtocol? ==>
            s == Returned(Rejected(request, UnknownProtocol(request.protocol.name)), []))
      && (request.protocol == Venus ==> s == ExecuteVenus(request, world.chain))
      && (request.protocol == Aave ==> s == ExecuteAave(request, world.chain))
    ensures s.Returned? ==> s.result.status != Pending
    ensures s.Returned? && s.result.status == Failed ==> s.result.hash == ""
    ensures s.Returned? ==> s.result.action == request.action && s.result.protocol == request.protocol
    ensures s.Returned? && request.action != Claim ==>
      s.result.token == request.token && s.result.amount == request.amount
  {
    match world.feeData
    case Throws(message) => Threw(message)
    case Ok(gasPrice) =>
      var gwei := GasPriceGwei(gasPrice);
      if gwei > MAX_GAS_PRICE then
        Returned(Rejected(request, GasTooHigh(gwei, MAX_GAS_PRICE)), [])
      else
        match request.protocol
        case Venus => ExecuteVenus(request, world.chain)
        case Aave => ExecuteAave(request, world.chain)
        case OtherProtocol(name) => Returned(Rejected(request, UnknownProtocol(name)), [])
  }

  /** Above the gas ceiling nothing about the chain matters: no adapter is called. */
  lemma GasGateIgnoresChain(request: TxRequest, gasPrice: Option<nat>, chain1: ChainEnv, chain2: ChainEnv)
    requires GasPriceGwei(gasPrice) > MAX_GAS_PRICE
    ensures ExecuteAction(request, World(Ok(gasPrice), chain1)) == ExecuteAction(request, World(Ok(gasPrice), chain2))
    ensures ExecuteAction(request, World(Ok(gasPrice), chain1)).calls == []
    ensures ExecuteAction(request, World(Ok(gasPrice), chain1)).result.status == Failed
  {
  }

  /** The batch loop's view of one step: a returned result as it is, an exception
      as a `failed` result echoing the step's request. */
  function StepResult(request: TxRequest, s: Step): (r: TxResult)
    ensures s.Returned? ==> r == s.result
    ensures s.Threw? ==> r == Rejected(request, Thrown(s.message))
  {
    match s
    case Returned(result, _) => result
    case Threw(message) => Rejected(request, Thrown(message))
  }

  /** The outcome of request `i` of a batch, executed in the world of step `i`. */
  function Outcome(actions: seq<TxRequest>, world: nat -> World, i: nat): TxResult
    requires i < |actions|
  {
    StepResult(actions[i], ExecuteAction(actions[i], world(i)))
  }

  /** The results of steps `from..`: each step's outcome, stopping after the first
      failed one. */
  function BatchFrom(actions: seq<TxRequest>, world: nat -> World, from: nat): (results: seq<TxResult>)
    requires from <= |actions|
    ensures |results| <= |actions| - from
    ensures forall i :: 0 <= i < |results| ==> results[i] == Outcome(actions, world, from + i)
    ensures forall i :: 0 <= i < |results| - 1 ==> results[i].status != Failed
    ensures |results| < |actions| - from ==> |results| > 0 && results[|results| - 1].status == Failed
    decreases |actions| - from
  {
    if from == |actions| then []
    else
      var r := Outcome(actions, world, from);
      if r.status == Failed then [r]
      else
        var rest := BatchFrom(actions, world, from + 1);
        assert forall i :: 0 < i < |rest| + 1 ==> ([r] + rest)[i] == rest[i - 1];
        [r] + rest
  }

  /** The results of a whole batch: `results[i]` is the outcome of `actions[i]`,
      every result but the last succeeded, and a batch cut short ends in a failure. */
  function BatchResults(actions: seq<TxRequest>, world: nat -> World): (results: seq<TxResult>)
    ensures |results| <= |actions|
    ensures |actions| > 0 ==> |results| > 0
    ensures forall i :: 0 <= i < |results| ==> results[i] == Outcome(actions, world, i)
    ensures forall i :: 0 <= i < |results| - 1 ==> results[i].status != Failed
    ensures |results| < |actions| ==> results[|results| - 1].status == Failed
  {
    BatchFrom(actions, world, 0)
  }

  /** No step after the first failure is attempted, and every step before it is. */
  lemma BatchStopsAtFirstFailure(actions: seq<TxRequest>, world: nat -> World, k: nat)
    requires k < |actions| && Outcome(actions, world, k).status == Failed
    requires forall i :: 0 <= i < k ==> Outcome(actions, world, i).status != Failed
    ensures |BatchResults(actions, world)| == k + 1
  {
  }

  /** A batch whose every step succeeds runs to the end. */
  lemma BatchWithoutFailureCompletes(actions: seq<TxRequest>, world: nat -> World)
    requires forall i :: 0 <= i < |actions| ==> Outcome(actions, world, i).status != Failed
    ensures |BatchResults(actions, world)| == |actions|
  {
  }

  /** A batch's record and the log it was appended to. */
  datatype BatchOutcome = BatchOutcome(record: AgentAction, log: seq<AgentAction>)

  /** Run a batch and append exactly one record, holding the full request list, to
      the log. The id and timestamp are supplied by the caller. */
  function ExecuteBatch(log: seq<AgentAction>, actions: seq<TxRequest>, strategyName: string,
                        reasoning: Rationale, id: string, now: int, world: nat -> World): (out: BatchOutcome)
    ensures |out.log| == |log| + 1
    ensures out.log[..|log|] == log && out.log[|log|] == out.record
    ensures out.record.id == id && out.record.timestamp == now
    ensures out.record.strategy == strategyName && out.record.reasoning == reasoning
    ensures out.record.actions == actions
    ensures |out.record.results| <= |actions|
    ensures forall i :: 0 <= i < |out.record.results| ==> out.record.results[i] == Outcome(actions, world, i)
    ensures forall i :: 0 <= i < |out.record.results| - 1 ==> out.record.results[i].status != Failed
    ensures |out.record.results| < |actions| ==> |out.record.results| > 0 && out.record.results[|out.record.results| - 1].status == Failed
  {
    var record := AgentAction(id, now, strategyName, actions, BatchResults(actions, world), reasoning);
    BatchOutcome(record, log + [record])
  }

  /** The emptied action log. */
  function ClearActionLog(log: seq<AgentAction>): (cleared: seq<AgentAction>)
    ensures |cleared| == 0
  {
    []
  }
}

=== FILE: math.dfy ===
/** Real exponentiation with a natural exponent, and the facts about it that the
    compounding formulas of the two lending adapters rely on. */
module RealMath {

  /** x raised to the n-th power. */
  function Pow(x: real, n: nat): real
    decreases n
  {
    if n == 0 then 1.0 else x * Pow(x, n - 1)
  }

  lemma {:induction false} PowOne(n: nat)
    ensures Pow(1.0, n) == 1.0
    decreases n
  {
    if n > 0 {
      PowOne(n - 1);
    }
  }

  lemma {:induction false} PowPositive(x: real, n: nat)
    requires x > 0.0
    ensures Pow(x, n) > 0.0
    decreases n
  {
    if n > 0 {
      PowPositive(x, n - 1);
      assert Pow(x, n) == x * Pow(x, n - 1);
    }
  }

  lemma {:induction false} PowAtLeastOne(x: real, n: nat)
    requires x >= 1.0
    ensures Pow(x, n) >= 1.0
    decreases n
  {
    if n > 0 {
      PowAtLeastOne(x, n - 1);
      var p := Pow(x, n - 1);
      assert x * p >= 1.0 * p by {
        assert (x - 1.0) * p >= 0.0;
      }
    }
  }

  /** Powers of a non-negative base are monotone in the base. */
  lemma {:induction false} PowMonotone(x: real, y: real, n: nat)
    requires 0.0 <= x <= y
    ensures 0.0 <= Pow(x, n) <= Pow(y, n)
    decreases n
  {
    if n > 0 {
      PowMonotone(x, y, n - 1);
      var px, py := Pow(x, n - 1), Pow(y, n - 1);
      assert x * px <= y * px by {
        assert (y - x) * px >= 0.0;
      }
      assert y * px <= y * py by {
        assert y * (py - px) >= 0.0;
      }
      assert 0.0 <= x * px;
    }
  }

  /** ... and strictly monotone once the exponent is positive. */
  lemma {:induction false} PowStrictlyMonotone(x: real, y: real, n: nat)
    requires 0.0 <= x < y
    requires n >= 1
    ensures Pow(x, n) < Pow(y, n)
    decreases n
  {
    if n == 1 {
      assert Pow(x, 0) == 1.0 && Pow(y, 0) == 1.0;
    } else {
      PowStrictlyMonotone(x, y, n - 1);
      PowMonotone(x, y, n - 1);
      var px, py := Pow(x, n - 1), Pow(y, n - 1);
      assert x * px <= y * px by {
        assert (y - x) * px >= 0.0;
      }
      assert y * px < y * py by {
        assert y > 0.0;
        assert py - px > 0.0;
        assert y * (py - px) > 0.0;
      }
    }
  }

  /** Multiplying by a non-negative factor preserves order. */
  lemma MulLeftMonotone(c: real, a: real, b: real)
    requires c >= 0.0
    requires a <= b
    ensures c * a <= c * b
  {
    assert c * b - c * a == c * (b - a);
  }

  lemma MulPositive(a: real, b: real)
    requires a > 0.0 && b > 0.0
    ensures a * b > 0.0
  {
  }

  /** One Bernoulli step: if p >= 1 + m*r then (1 + r)*p >= 1 + (m + 1)*r + m*r*r. */
  lemma BernoulliStep(r: real, m: real, p: real)
    requires r >= 0.0 && m >= 0.0
    requires p >= 1.0 + m * r
    ensures (1.0 + r) * p >= 1.0 + (m + 1.0) * r + m * r * r
  {
    MulLeftMonotone(r, 1.0 + m * r, p);
    assert (1.0 + r) * p == p + r * p;
    assert r * (1.0 + m * r) == r + m * r * r;
  }

  /** Bernoulli's inequality: (1 + r)^n >= 1 + n*r for r >= 0. */
  lemma {:induction false} Bernoulli(r: real, n: nat)
    requires r >= 0.0
    ensures Pow(1.0 + r, n) >= 1.0 + (n as real) * r
    decreases n
  {
    if n > 0 {
      Bernoulli(r, n - 1);
      var m := (n - 1) as real;
      BernoulliStep(r, m, Pow(1.0 + r, n - 1));
      MulLeftMonotone(m, 0.0, r * r);
    }
  }

  /** One strict Bernoulli step: with r > 0 and m >= 1 the dropped m*r*r is positive. */
  lemma BernoulliStepStrict(r: real, m: real, p: real)
    requires r > 0.0 && m >= 1.0
    requires p >= 1.0 + m * r
    ensures (1.0 + r) * p > 1.0 + (m + 1.0) * r
  {
    BernoulliStep(r, m, p);
    MulPositive(m, r);
    MulPositive(m * r, r);
  }

  /** Bernoulli's inequality is strict for r > 0 and n >= 2. */
  lemma {:induction false} BernoulliStrict(r: real, n: nat)
    requires r > 0.0
    requires n >= 2
    ensures Pow(1.0 + r, n) > 1.0 + (n as real) * r
    decreases n
  {
    Bernoulli(r, n - 1);
    BernoulliStepStrict(r, (n - 1) as real, Pow(1.0 + r, n - 1));
    assert (n - 1) as real + 1.0 == n as real;
  }
}

=== FILE: monitor.dfy ===
/** The agent monitor: one health-and-strategy check as a status-to-status
    transition, and the start/stop switch of the periodic check. */
module Monitor {
  import opened Common
  import opened Types
  import opened Config
  import opened Executor
  import Portfolio

  /** How many error entries a successful check keeps. */
  const MAX_ERRORS: nat := 10
  /** The health factor below which a check raises an emergency. It is always the
      default configuration's. */
  const EMERGENCY_THRESHOLD: real := DEFAULT_CONFIG.emergencyWithdrawThreshold

  datatype AgentError = NoWalletConfigured | Emergency(healthFactor: real) | CheckFailed(message: string)

  datatype AgentStatus = AgentStatus(
    running: bool,
    lastCheck: Option<int>,
    lastAction: Option<int>,
    venusHealth: real,
    aaveHealth: real,
    totalValueUSD: real,
    activeStrategies: seq<string>,
    pendingRecommendations: seq<Recommendation>,
    errors: seq<AgentError>)

  const INITIAL_STATUS := AgentStatus(false, None, None, 999.0, 999.0, 0.0,
                                      [BestYield.Name(), StableYield.Name()], [], [])

  /** What one check reads, in the order it reads it: the signer's address, the
      portfolio's net worth, the two health factors and the recommendations, each of
      which may throw; then the id, clock readings and chain of an executed batch. */
  datatype CheckEnv = CheckEnv(
    wallet: Option<string>,
    netWorth: Fallible<real>,
    venusHealth: Fallible<real>,
    aaveHealth: Fallible<real>,
    recommendations: Fallible<seq<Recommendation>>,
    batchId: string,
    batchTime: int,
    world: nat -> World,
    actionTime: int,
    checkTime: int)

  /** The status after a check and the action log after it. */
  datatype CheckOutcome = CheckOutcome(status: AgentStatus, log: seq<AgentAction>)

  /** The last `n` entries (all of them when there are fewer). */
  function LastN<T>(xs: seq<T>, n: nat): (ys: seq<T>)
    ensures |ys| == if |xs| <= n then |xs| else n
    ensures ys == xs[|xs| - |ys|..]
  {
    if |xs| <= n then xs else xs[|xs| - n..]
  }

  /** An emergency is a known, positive health factor below the threshold; a 0
      (a failed read) never is. */
  predicate IsEmergency(venusHealth: real, aaveHealth: real) {
    var minHealth := Min(venusHealth, aaveHealth);
    0.0 < minHealth < EMERGENCY_THRESHOLD
  }

  /** The alert a check appends for the two health factors: one emergency entry
      carrying the smaller factor, or nothing. */
  function EmergencyAlert(venusHealth: real, aaveHealth: real): (alert: seq<AgentError>)
    ensures |alert| <= 1
    ensures |alert| == 1 <==> IsEmergency(venusHealth, aaveHealth)
    ensures |alert| == 1 ==>
      && alert[0].Emergency? && alert[0].healthFactor < EMERGENCY_THRESHOLD
      && (alert[0].healthFactor == venusHealth || alert[0].healthFactor == aaveHealth)
      && alert[0].healthFactor <= venusHealth && alert[0].healthFactor <= aaveHealth
  {
    if IsEmergency(venusHealth, aaveHealth) then [Emergency(Min(venusHealth, aaveHealth))] else []
  }

  /** As written, the check compares the raw minimum, so a protocol that reads 0
      (no collateral there, a shortfall, or a failed read) hides a critical factor
      on the other. */
  lemma IdleProtocolMasksEmergency()
    ensures 0.0 < 1.05 < EMERGENCY_THRESHOLD
    ensures EmergencyAlert(0.0, 1.05) == [] && EmergencyAlert(1.05, 0.0) == []
  {
  }

  /** The alert with each factor saturated as the portfolio does (0 reads as no
      debt): an emergency is raised whenever either protocol reports a positive
      factor below the threshold, carrying the smallest positive factor. */
  function SaturatedEmergencyAlert(venusHealth: real, aaveHealth: real): (alert: seq<AgentError>)
    ensures |alert| <= 1
    ensures venusHealth >= 0.0 && aaveHealth >= 0.0 ==>
      (|alert| == 1 <==> (0.0 < venusHealth < EMERGENCY_THRESHOLD) || (0.0 < aaveHealth < EMERGENCY_THRESHOLD))
    ensures |alert| == 1 ==>
      && alert[0].Emergency? && 0.0 < alert[0].healthFactor < EMERGENCY_THRESHOLD
      && (alert[0].healthFactor == venusHealth || alert[0].healthFactor == aaveHealth)
      && (venusHealth > 0.0 ==> alert[0].healthFactor <= venusHealth)
      && (aaveHealth > 0.0 ==> alert[0].healthFactor <= aaveHealth)
  {
    EmergencyAlert(Portfolio.Saturated(venusHealth), Portfolio.Saturated(aaveHealth))
  }

  /** The actions of a recommendation that carry an amount, in order. */
  function ValidActions(actions: seq<TxRequest>): (valid: seq<TxRequest>)
    ensures |valid| <= |actions|
    ensures forall i :: 0 <= i < |valid| ==> valid[i].amount > 0.0 && valid[i] in actions
    ensures forall i :: 0 <= i < |actions| && actions[i].amount > 0.0 ==> actions[i] in valid
    decreases |actions|
  {
    if |actions| == 0 then []
    else if actions[0].amount > 0.0 then [actions[0]] + ValidActions(actions[1..])
    else ValidActions(actions[1..])
  }

  /** When every action carries an amount, nothing is filtered out. */
  lemma {:induction false} ValidActionsKeepsPositive(actions: seq<TxRequest>)
    requires forall i :: 0 <= i < |actions| ==> actions[i].amount > 0.0
    ensures ValidActions(actions) == actions
    decreases |actions|
  {
    if |actions| > 0 {
      ValidActionsKeepsPositive(actions[1..]);
    }
  }

  /** A single action survives the filter iff it carries an amount. */
  lemma ValidActionsSingleton(x: TxRequest)
    ensures ValidActions([x]) == if x.amount > 0.0 then [x] else []
  {
    assert [x][1..] == [];
  }

  /** Filtering a concatenation concatenates the filtered parts; with the singleton
      case this pins the surviving actions' order and multiplicity. */
  lemma {:induction false} ValidActionsDistributes(a: seq<TxRequest>, b: seq<TxRequest>)
    ensures ValidActions(a + b) == ValidActions(a) + ValidActions(b)
    decreases |a|
  {
    if |a| == 0 {
      assert a + b == b;
    } else {
      ConcatHeadTail(a, b);
      ValidActionsDistributes(a[1..], b);
      ValidActionsCons(a[0], a[1..] + b);
      ValidActionsCons(a[0], a[1..]);
      ConcatAssoc(if a[0].amount > 0.0 then [a[0]] else [], ValidActions(a[1..]), ValidActions(b));
    }
  }

  /** One step of the filter on an action followed by the rest. */
  lemma ValidActionsCons(x: TxRequest, rest: seq<TxRequest>)
    ensures ValidActions([x] + rest) == (if x.amount > 0.0 then [x] else []) + ValidActions(rest)
  {
    ConcatHeadTail([x], rest);
  }

  /** Filtering twice is filtering once. */
  lemma ValidActionsIdempotent(actions: seq<TxRequest>)
    ensures ValidActions(ValidActions(actions)) == ValidActions(actions)
  {
    ValidActionsKeepsPositive(ValidActions(actions));
  }

  /** The top recommendation is executed when auto-execution is on, it is not high
      risk and at least one of its actions carries an amount. */
  predicate AutoExecutes(autoExecute: bool, recs: seq<Recommendation>) {
    autoExecute && |recs| > 0 && recs[0].risk != High && |ValidActions(recs[0].actions)| > 0
  }

  /** Every read of the check succeeded. */
  predicate ReadsSucceed(env: CheckEnv) {
    env.netWorth.Ok? && env.venusHealth.Ok? && env.aaveHealth.Ok? && env.recommendations.Ok?
  }

  /** The message of the first read that threw. */
  function FirstFailure(env: CheckEnv): string
    requires !ReadsSucceed(env)
  {
    if env.netWorth.Throws? then env.netWorth.message
    else if env.venusHealth.Throws? then env.venusHealth.message
    else if env.aaveHealth.Throws? then env.aaveHealth.message
    else env.recommendations.message
  }

  /** The exception path: append the message, without truncating the errors. */
  function Failed(status: AgentStatus, log: seq<AgentAction>, message: string): (out: CheckOutcome)
    ensures |out.status.errors| == |status.errors| + 1
    ensures out.status.errors[..|status.errors|] == status.errors
    ensures out.status.errors[|status.errors|] == CheckFailed(message)
    ensures out.status.(errors := status.errors) == status
    ensures out.log == log
  {
    CheckOutcome(status.(errors := status.errors + [CheckFailed(message)]), log)
  }

  /** The final stage of a successful check: auto-execute the top recommendation if
      it qualifies, then stamp the check and keep the last ten errors. */
  function Conclude(status: AgentStatus, log: seq<AgentAction>, autoExecute: bool,
                    recs: seq<Recommendation>, env: CheckEnv): (out: CheckOutcome)
    ensures out.status.lastCheck == Some(env.checkTime)
    ensures out.status.errors == LastN(status.errors, MAX_ERRORS)
    ensures AutoExecutes(autoExecute, recs) ==>
      && out.status.lastAction == Some(env.actionTime)
      && |out.log| == |log| + 1 && out.log[..|log|] == log
      && out.log[|log|].actions == ValidActions(recs[0].actions)
      && out.log[|log|].strategy == recs[0].strategy.Name()
      && out.log[|log|].reasoning == recs[0].reasoning
    ensures !AutoExecutes(autoExecute, recs) ==> out.status.lastAction == status.lastAction && out.log == log
    ensures out.status.(lastCheck := status.lastCheck, lastAction := status.lastAction, errors := status.errors) == status
  {
    var executed :=
      if AutoExecutes(autoExecute, recs) then
        var top := recs[0];
        var batch := ExecuteBatch(log, ValidActions(top.actions), top.strategy.Name(), top.reasoning,
                                  env.batchId, env.batchTime, env.world);
        CheckOutcome(status.(lastAction := Some(env.actionTime)), batch.log)
      else CheckOutcome(status, log);
    CheckOutcome(executed.status.(lastCheck := Some(env.checkTime),
                                  errors := LastN(executed.status.errors, MAX_ERRORS)),
                 executed.log)
  }

  /** The status a check leaves behind when one of its reads throws: every value
      read before the failing one is stored, the emergency alert is recorded once
      both health factors are in, and the first message is appended untruncated. */
  function AfterFailedRead(status: AgentStatus, env: CheckEnv): (s: AgentStatus)
    requires !ReadsSucceed(env)
    ensures s.running == status.running && s.activeStrategies == status.activeStrategies
    ensures s.lastCheck == status.lastCheck && s.lastAction == status.lastAction
    ensures |s.errors| > |status.errors| && s.errors[..|status.errors|] == status.errors
    ensures s.errors[|s.errors| - 1] == CheckFailed(FirstFailure(env))
    ensures env.netWorth.Ok? ==> s.totalValueUSD == env.netWorth.value
    ensures env.netWorth.Throws? ==> s.totalValueUSD == status.totalValueUSD
    ensures env.netWorth.Ok? && env.venusHealth.Ok? ==> s.venusHealth == env.venusHealth.value
    ensures env.netWorth.Ok? && env.venusHealth.Ok? && env.aaveHealth.Ok? ==>
      && s.aaveHealth == env.aaveHealth.value
      && s.errors == status.errors + EmergencyAlert(env.venusHealth.value, env.aaveHealth.value)
                     + [CheckFailed(env.recommendations.message)]
    ensures env.netWorth.Throws? || env.venusHealth.Throws? || env.aaveHealth.Throws? ==>
      s.errors == status.errors + [CheckFailed(FirstFailure(env))]
    ensures s.(totalValueUSD := status.totalValueUSD, venusHealth := status.venusHealth,
               aaveHealth := status.aaveHealth, errors := status.errors) == status
  {
    match env.netWorth
    case Throws(message) => Failed(status, [], message).status
    case Ok(netWorth) =>
      var s1 := status.(totalValueUSD := netWorth);
      match env.venusHealth
      case Throws(message) => Failed(s1, [], message).status
      case Ok(venus) =>
        var s2 := s1.(venusHealth := venus);
        match env.aaveHealth
        case Throws(message) => Failed(s2, [], message).status
        case Ok(aave) =>
          var s3 := s2.(aaveHealth := aave);
          var s4 := s3.(errors := s3.errors + EmergencyAlert(venus, aave));
          Failed(s4, [], env.recommendations.message).status
  }

  /** One check. Without a signer only an error entry is added. Otherwise the reads
      run in order, each result is stored as soon as it arrives, and the first read
      that throws ends the check with its message appended. */
  function RunCheck(status: AgentStatus, log: seq<AgentAction>, autoExecute: bool, env: CheckEnv): (out: CheckOutcome)
    ensures env.wallet.None? ==>
      out == CheckOutcome(status.(errors := status.errors + [NoWalletConfigured]), log)
    ensures out.status.running == status.running
    ensures out.status.activeStrategies == status.activeStrategies
    ensures env.wallet.Some? && ReadsSucceed(env) ==>
      var venus := env.venusHealth.value;
      var aave := env.aaveHealth.value;
      var recs := env.recommendations.value;
      && out.status.totalValueUSD == env.netWorth.value
      && out.status.venusHealth == venus && out.status.aaveHealth == aave
      && out.status.pendingRecommendations == recs
      && out.status.lastCheck == Some(env.checkTime)
      && out.status.errors == LastN(status.errors + EmergencyAlert(venus, aave), MAX_ERRORS)
      && (AutoExecutes(autoExecute, recs) ==>
            && out.status.lastAction == Some(env.actionTime)
            && |out.log| == |log| + 1 && out.log[..|log|] == log
            && out.log[|log|].actions == ValidActions(recs[0].actions))
      && (!AutoExecutes(autoExecute, recs) ==> out.status.lastAction == status.lastAction && out.log == log)
    ensures env.wallet.Some? && !ReadsSucceed(env) ==>
      && out.log == log
      && out.status.lastCheck == status.lastCheck && out.status.lastAction == status.lastAction
      && |out.status.errors| > |status.errors|
      && out.status.errors[..|status.errors|] == status.errors
      && out.status.errors[|out.status.errors| - 1] == CheckFailed(FirstFailure(env))
      && (env.netWorth.Ok? ==> out.status.totalValueUSD == env.netWorth.value)
      && (env.netWorth.Throws? ==> out.status.totalValueUSD == status.totalValueUSD)
      && (env.netWorth.Ok? && env.venusHealth.Ok? && env.aaveHealth.Ok? ==>
            out.status.errors == status.errors + EmergencyAlert(env.venusHealth.value, env.aaveHealth.value)
                                 + [CheckFailed(env.recommendations.message)])
      && (env.netWorth.Throws? || env.venusHealth.Throws? || env.aaveHealth.Throws? ==>
            out.status.errors == status.errors + [CheckFailed(FirstFailure(env))])
      && (env.netWorth.Ok? && env.venusHealth.Ok? ==> out.status.venusHealth == env.venusHealth.value)
      && (env.netWorth.Ok? && env.venusHealth.Ok? && env.aaveHealth.Ok? ==>
            out.status.aaveHealth == env.aaveHealth.value)
      && out.status.pendingRecommendations == status.pendingRecommendations
  {
    if env.wallet.None? then
      CheckOutcome(status.(errors := status.errors + [NoWalletConfigured]), log)
    else if !ReadsSucceed(env) then
      CheckOutcome(AfterFailedRead(status, env), log)
    else
      var venus, aave := env.venusHealth.value, env.aaveHealth.value;
      var read := status.(totalValueUSD := env.netWorth.value, venusHealth := venus, aaveHealth := aave,
                          errors := status.errors + EmergencyAlert(venus, aave),
                          pendingRecommendations := env.recommendations.value);
      Conclude(read, log, autoExecute, env.recommendations.value, env)
  }

  /** The masked emergency at the level of a whole check: with no Venus position
      and an Aave factor of 1.05 the check records no alert, where the corrected
      rule raises one carrying 1.05. */
  lemma RunCheckMissesIdleEmergency(status: AgentStatus, log: seq<AgentAction>, autoExecute: bool, env: CheckEnv)
    requires env.wallet.Some? && ReadsSucceed(env)
    requires env.venusHealth.value == 0.0 && env.aaveHealth.value == 1.05
    ensures RunCheck(status, log, autoExecute, env).status.errors == LastN(status.errors, MAX_ERRORS)
    ensures SaturatedEmergencyAlert(env.venusHealth.value, env.aaveHealth.value) == [Emergency(1.05)]
  {
  }

  /** An emergency is only recorded: whether and what the check executes does not
      depend on the health factors. */
  lemma EmergencyTakesNoAction(status: AgentStatus, log: seq<AgentAction>, autoExecute: bool,
                               env: CheckEnv, venus: real, aave: real)
    requires env.wallet.Some? && ReadsSucceed(env)
    ensures var other := env.(venusHealth := Ok(venus), aaveHealth := Ok(aave));
      && RunCheck(status, log, autoExecute, env).log == RunCheck(status, log, autoExecute, other).log
      && RunCheck(status, log, autoExecute, env).status.lastAction
         == RunCheck(status, log, autoExecute, other).status.lastAction
  {
  }

  // ---- start / stop ----

  /** The agent status and the periodic check's interval, when one is scheduled. */
  datatype Monitor = Monitor(status: AgentStatus, timer: Option<nat>)

  const INITIAL_MONITOR := Monitor(INITIAL_STATUS, None)

  /** A periodic check is scheduled exactly while the agent runs. */
  predicate Consistent(m: Monitor) {
    m.status.running <==> m.timer.Some?
  }

  /** The interval a start uses: the given one, or the default when it is missing
      or 0. */
  function IntervalOf(intervalMs: Option<nat>): (interval: nat)
    ensures interval > 0
    ensures intervalMs.Some? && intervalMs.value > 0 ==> interval == intervalMs.value
    ensures intervalMs.None? || intervalMs.value == 0 ==> interval == DEFAULT_CONFIG.intervalMs
  {
    match intervalMs
    case Some(ms) => if ms > 0 then ms else DEFAULT_CONFIG.intervalMs
    case None => DEFAULT_CONFIG.intervalMs
  }

  /** Start: nothing when already running; otherwise set the flag and schedule the
      periodic check. The initial check it fires is a separate `RunCheck`. */
  function Start(m: Monitor, intervalMs: Option<nat>): (m': Monitor)
    ensures m.status.running ==> m' == m
    ensures !m.status.running ==>
      m'.status == m.status.(running := true) && m'.timer == Some(IntervalOf(intervalMs))
    ensures m'.status.running
  {
    if m.status.running then m
    else Monitor(m.status.(running := true), Some(IntervalOf(intervalMs)))
  }

  /** Stop: always clear the flag and the scheduled check. */
  function Stop(m: Monitor): (m': Monitor)
    ensures !m'.status.running && m'.timer.None?
    ensures m'.status.(running := m.status.running) == m.status
  {
    Monitor(m.status.(running := false), None)
  }

  /** Start and stop keep the flag and the schedule in step, starting from the
      initial state; a check never touches either. */
  lemma ConsistencyPreserved(m: Monitor, intervalMs: Option<nat>, log: seq<AgentAction>,
                             autoExecute: bool, env: CheckEnv)
    requires Consistent(m)
    ensures Consistent(INITIAL_MONITOR)
    ensures Consistent(Start(m, intervalMs))
    ensures Consistent(Stop(m))
    ensures Consistent(Monitor(RunCheck(m.status, log, autoExecute, env).status, m.timer))
  {
  }

  /** A second start is ignored, a second stop changes nothing, and a stop undoes a
      start of a stopped monitor. */
  lemma StartStopLaws(m: Monitor, i: Option<nat>, j: Option<nat>)
    requires Consistent(m)
    ensures Start(Start(m, i), j) == Start(m, i)
    ensures Stop(Stop(m)) == Stop(m)
    ensures !m.status.running ==> Stop(Start(m, i)) == m
  {
  }
}

=== FILE: portfolio.dfy ===
/** The portfolio aggregation of the strategy engine: price every position, split
    supply from borrow, USD-weight the APYs and take the smaller of the two
    protocols' health factors. */
module Portfolio {
  import opened Common
  import opened Types
  import opened Config
  import Aave

  /** Health-factor value standing for "no debt" (and, here, for a failed read). */
  const NO_DEBT_HEALTH: real := 999.0

  /** The USD price table: one oracle read per supported token. */
  function PriceTable(fetched: string -> Fallible<nat>): (prices: map<string, real>)
    ensures prices.Keys == TOKENS.Keys
    ensures forall s :: s in prices ==> prices[s] >= 0.0
    ensures forall s :: s in prices && (s !in AAVE_MARKETS || fetched(s).Throws?) ==> prices[s] == 0.0
    ensures forall s :: s in prices && s in AAVE_MARKETS && fetched(s).Ok? ==>
      prices[s] * Aave.PRICE_UNIT == fetched(s).value as real
  {
    map s | s in TOKENS :: Aave.TokenPriceUSD(s, fetched(s))
  }

  /** A missing price counts as 0. */
  function PriceOf(prices: map<string, real>, symbol: string): real {
    if symbol in prices then prices[symbol] else 0.0
  }

  /** Every position with its USD value filled in. */
  function Priced(ps: seq<Position>, prices: map<string, real>): (qs: seq<Position>)
    ensures |qs| == |ps|
    ensures forall i :: 0 <= i < |ps| ==>
      qs[i] == ps[i].(amountUSD := ps[i].amount * PriceOf(prices, ps[i].token.symbol))
  {
    seq(|ps|, i requires 0 <= i < |ps| => ps[i].(amountUSD := ps[i].amount * PriceOf(prices, ps[i].token.symbol)))
  }

  function OfKind(ps: seq<Position>, kind: PositionKind): (qs: seq<Position>)
    ensures |qs| <= |ps|
    ensures forall q :: q in qs ==> q in ps && q.kind == kind
    ensures forall p :: p in ps && p.kind == kind ==> p in qs
    decreases |ps|
  {
    if |ps| == 0 then []
    else if ps[0].kind == kind then [ps[0]] + OfKind(ps[1..], kind)
    else OfKind(ps[1..], kind)
  }

  /** Sum of USD values. */
  function TotalUSD(ps: seq<Position>): real
    decreases |ps|
  {
    if |ps| == 0 then 0.0 else ps[0].amountUSD + TotalUSD(ps[1..])
  }

  /** Sum of apy * USD value. */
  function WeightedSum(ps: seq<Position>): real
    decreases |ps|
  {
    if |ps| == 0 then 0.0 else ps[0].apy * ps[0].amountUSD + WeightedSum(ps[1..])
  }

  /** USD-weighted average APY, 0 when the total is not positive. */
  function WeightedAPY(ps: seq<Position>): real {
    var total := TotalUSD(ps);
    if total > 0.0 then WeightedSum(ps) / total else 0.0
  }

  /** Supply and borrow totals add up to the total over all positions. */
  lemma {:induction false} TotalsPartition(ps: seq<Position>)
    ensures TotalUSD(OfKind(ps, SupplyPosition)) + TotalUSD(OfKind(ps, BorrowPosition)) == TotalUSD(ps)
    decreases |ps|
  {
    if |ps| > 0 {
      TotalsPartition(ps[1..]);
    }
  }

  lemma {:induction false} WeightedSumBounds(ps: seq<Position>, lo: real, hi: real)
    requires forall i :: 0 <= i < |ps| ==> ps[i].amountUSD >= 0.0 && lo <= ps[i].apy <= hi
    ensures lo * TotalUSD(ps) <= WeightedSum(ps) <= hi * TotalUSD(ps)
    decreases |ps|
  {
    if |ps| > 0 {
      WeightedSumBounds(ps[1..], lo, hi);
      var u, rest := ps[0].amountUSD, TotalUSD(ps[1..]);
      ScaleBetween(lo, ps[0].apy, hi, u);
      assert lo * TotalUSD(ps) == lo * u + lo * rest;
      assert hi * TotalUSD(ps) == hi * u + hi * rest;
    }
  }

  lemma ScaleBetween(lo: real, a: real, hi: real, u: real)
    requires u >= 0.0 && lo <= a <= hi
    ensures lo * u <= a * u <= hi * u
  {
    assert (a - lo) * u >= 0.0;
    assert (hi - a) * u >= 0.0;
  }

  /** With non-negative USD values, the weighted APY of a non-empty book lies
      between the smallest and the largest position APY. */
  lemma WeightedAPYBounds(ps: seq<Position>, lo: real, hi: real)
    requires forall i :: 0 <= i < |ps| ==> ps[i].amountUSD >= 0.0 && lo <= ps[i].apy <= hi
    requires TotalUSD(ps) > 0.0
    ensures lo <= WeightedAPY(ps) <= hi
  {
    WeightedSumBounds(ps, lo, hi);
    DivBounds(lo, WeightedSum(ps), hi, TotalUSD(ps));
  }

  lemma DivBounds(lo: real, w: real, hi: real, t: real)
    requires t > 0.0 && lo * t <= w <= hi * t
    ensures lo <= w / t <= hi
  {
    var q := w / t;
    assert q * t == w;
    FactorNonNegative(q - lo, t);
    FactorNonNegative(hi - q, t);
  }

  lemma FactorNonNegative(a: real, t: real)
    requires t > 0.0 && a * t >= 0.0
    ensures a >= 0.0
  {
  }

  /** `venusHF || 999`: a zero (failed or empty) health factor counts as no debt. */
  function Saturated(hf: real): real {
    if hf == 0.0 then NO_DEBT_HEALTH else hf
  }

  /** The portfolio health factor: the smaller protocol value after saturation. */
  function HealthFactor(venusHF: real, aaveHF: real): (hf: real)
    ensures venusHF <= NO_DEBT_HEALTH || aaveHF <= NO_DEBT_HEALTH ==> hf <= NO_DEBT_HEALTH
    ensures venusHF != 0.0 && aaveHF != 0.0 ==> hf == Min(venusHF, aaveHF)
    ensures venusHF == 0.0 ==> hf == Min(NO_DEBT_HEALTH, Saturated(aaveHF))
    ensures aaveHF == 0.0 ==> hf == Min(Saturated(venusHF), NO_DEBT_HEALTH)
    ensures venusHF >= 0.0 && aaveHF >= 0.0 ==> hf > 0.0
  {
    Min(Saturated(venusHF), Saturated(aaveHF))
  }

  /** A 2.0 on one side and "no debt" on the other gives 2.0; two failed reads
      give the no-debt value, never 0. */
  lemma HealthFactorExamples()
    ensures HealthFactor(2.0, 999.0) == 2.0
    ensures HealthFactor(0.0, 0.0) == NO_DEBT_HEALTH
  {
  }

  /** net APY = supplyAPY - borrowAPY * (borrowed / supplied) when anything is
      borrowed, computed as JavaScript does: with nothing supplied the ratio is
      +Infinity. */
  function NetAPY(weightedSupply: real, weightedBorrow: real, supplied: real, borrowed: real): (n: JsNumber)
    ensures borrowed <= 0.0 ==> n == Finite(weightedSupply)
    ensures borrowed > 0.0 && supplied != 0.0 ==>
      n == Finite(weightedSupply - weightedBorrow * (borrowed / supplied))
    ensures borrowed > 0.0 && supplied == 0.0 ==>
      (n.Finite? <==> false) && (n == NaN <==> weightedBorrow == 0.0)
  {
    if borrowed <= 0.0 then Finite(weightedSupply)
    else if supplied != 0.0 then Finite(weightedSupply - weightedBorrow * (borrowed / supplied))
    else if weightedBorrow > 0.0 then NegativeInfinity
    else if weightedBorrow < 0.0 then PositiveInfinity
    else NaN
  }

  /** The summary over already-fetched positions, prices and health factors. */
  function Summarize(positions: seq<Position>, prices: map<string, real>, venusHF: real, aaveHF: real)
    : (s: PortfolioSummary)
    ensures s.positions == Priced(positions, prices)
    ensures s.totalSuppliedUSD == TotalUSD(OfKind(s.positions, SupplyPosition))
    ensures s.totalBorrowedUSD == TotalUSD(OfKind(s.positions, BorrowPosition))
    ensures s.totalSuppliedUSD + s.totalBorrowedUSD == TotalUSD(s.positions)
    ensures s.weightedSupplyAPY == WeightedAPY(OfKind(s.positions, SupplyPosition))
    ensures s.weightedBorrowAPY == WeightedAPY(OfKind(s.positions, BorrowPosition))
    ensures s.netAPY == NetAPY(s.weightedSupplyAPY, s.weightedBorrowAPY, s.totalSuppliedUSD, s.totalBorrowedUSD)
    ensures s.netWorthUSD == s.totalSuppliedUSD - s.totalBorrowedUSD
    ensures s.totalSuppliedUSD <= 0.0 ==> s.weightedSupplyAPY == 0.0
    ensures s.totalBorrowedUSD <= 0.0 ==> s.weightedBorrowAPY == 0.0
    ensures s.totalBorrowedUSD <= 0.0 ==> s.netAPY == Finite(s.weightedSupplyAPY)
    ensures s.healthFactor == HealthFactor(venusHF, aaveHF)
  {
    var priced := Priced(positions, prices);
    var supplies := OfKind(priced, SupplyPosition);
    var borrows := OfKind(priced, BorrowPosition);
    var supplied := TotalUSD(supplies);
    var borrowed := TotalUSD(borrows);
    var ws := WeightedAPY(supplies);
    var wb := WeightedAPY(borrows);
    TotalsPartition(priced);
    PortfolioSummary(supplied, borrowed, supplied - borrowed, ws, wb,
                     NetAPY(ws, wb, supplied, borrowed), HealthFactor(venusHF, aaveHF), priced)
  }

  /** `getPortfolio`: Venus positions then Aave positions, priced from the oracle. */
  function GetPortfolio(venusPositions: seq<Position>, aavePositions: seq<Position>,
                        priceReads: string -> Fallible<nat>, venusHF: real, aaveHF: real)
    : (s: PortfolioSummary)
    ensures |s.positions| == |venusPositions| + |aavePositions|
    ensures s.positions == Priced(venusPositions + aavePositions, PriceTable(priceReads))
    ensures forall i :: 0 <= i < |venusPositions| ==> s.positions[i].protocol == venusPositions[i].protocol
    ensures forall i :: 0 <= i < |aavePositions| ==>
      s.positions[|venusPositions| + i].protocol == aavePositions[i].protocol
    ensures s.totalSuppliedUSD == TotalUSD(OfKind(s.positions, SupplyPosition))
    ensures s.totalBorrowedUSD == TotalUSD(OfKind(s.positions, BorrowPosition))
    ensures s.netWorthUSD == s.totalSuppliedUSD - s.totalBorrowedUSD
    ensures s.weightedSupplyAPY == WeightedAPY(OfKind(s.positions, SupplyPosition))
    ensures s.weightedBorrowAPY == WeightedAPY(OfKind(s.positions, BorrowPosition))
    ensures s.netAPY == NetAPY(s.weightedSupplyAPY, s.weightedBorrowAPY, s.totalSuppliedUSD, s.totalBorrowedUSD)
    ensures s.healthFactor == HealthFactor(venusHF, aaveHF)
  {
    Summarize(venusPositions + aavePositions, PriceTable(priceReads), venusHF, aaveHF)
  }
}

=== FILE: provider.dfy ===
/** The resilient RPC client: round-robin endpoint rotation and the retry loop that
    wraps every adapter read. */
module Provider {
  import opened Common
  import opened Config

  /** Move to the next endpoint of the fail-over list, wrapping around. */
  function Rotate(index: nat): (next: nat)
    ensures next < |RPC_URLS|
    ensures index + 1 < |RPC_URLS| ==> next == index + 1
    ensures index + 1 == |RPC_URLS| ==> next == 0
  {
    (index + 1) % |RPC_URLS|
  }

  /** The endpoint index after `k` rotations. */
  function Rotations(index: nat, k: nat): nat
    decreases k
  {
    if k == 0 then index else Rotate(Rotations(index, k - 1))
  }

  /** Starting from an index in range, `k` rotations land on (index + k) mod |endpoints|. */
  lemma {:induction false} RotationsWrap(index: nat, k: nat)
    requires index < |RPC_URLS|
    ensures Rotations(index, k) == (index + k) % |RPC_URLS|
    decreases k
  {
    if k > 0 {
      RotationsWrap(index, k - 1);
      ModSuccessor(index + k - 1);
    }
  }

  /** Taking the remainder first does not change the successor's remainder. */
  lemma ModSuccessor(x: nat)
    ensures ((x % |RPC_URLS|) + 1) % |RPC_URLS| == (x + 1) % |RPC_URLS|
  {
    assert |RPC_URLS| == 6;
    var q := x / 6;
    assert x == 6 * q + x % 6;
  }

  /** The outcome of one call of the wrapped function. */
  datatype Attempt<T> = Success(value: T) | Failure(error: string)

  /** What `withRetry` hands back: the value, or the last error it caught (`None`
      when it never called the function). */
  datatype RetryOutcome<T> = Returned(value: T) | Raised(error: Option<string>)

  /** Calls `fn` up to `maxRetries` times (attempt i answers `fn(i)`), returning the
      first success. After a failure that is not the last attempt it rotates the
      endpoint and waits `delayMs * (i + 1)`; after the last it surfaces that
      attempt's error. */
  method WithRetry<T>(fn: nat -> Attempt<T>, maxRetries: nat, delayMs: nat, index: nat)
    returns (outcome: RetryOutcome<T>, calls: nat, delays: seq<nat>, finalIndex: nat)
    requires index < |RPC_URLS|
    ensures calls <= maxRetries
    ensures forall j :: 0 <= j < calls - 1 ==> fn(j).Failure?
    ensures outcome.Returned? ==> calls >= 1 && fn(calls - 1) == Success(outcome.value)
    ensures outcome.Raised? ==> calls == maxRetries && forall j :: 0 <= j < maxRetries ==> fn(j).Failure?
    ensures outcome.Raised? ==>
      outcome.error == if maxRetries == 0 then None else Some(fn(maxRetries - 1).error)
    ensures |delays| == if calls == 0 then 0 else calls - 1
    ensures forall j :: 0 <= j < |delays| ==> delays[j] == delayMs * (j + 1)
    ensures finalIndex == Rotations(index, |delays|) && finalIndex < |RPC_URLS|
  {
    var lastError: Option<string> := None;
    delays := [];
    finalIndex := index;
    calls := 0;
    var i := 0;
    while i < maxRetries
      invariant i <= maxRetries && calls == i
      invariant forall j :: 0 <= j < i ==> fn(j).Failure?
      invariant lastError == if i == 0 then None else Some(fn(i - 1).error)
      invariant |delays| == if i == 0 then 0 else if i < maxRetries then i else i - 1
      invariant forall j :: 0 <= j < |delays| ==> delays[j] == delayMs * (j + 1)
      invariant finalIndex == Rotations(index, |delays|) && finalIndex < |RPC_URLS|
    {
      calls := calls + 1;
      match fn(i)
      case Success(v) =>
        outcome := Returned(v);
        return;
      case Failure(e) =>
        lastError := Some(e);
        if i < maxRetries - 1 {
          finalIndex := Rotate(finalIndex);
          delays := delays + [delayMs * (i + 1)];
        }
      i := i + 1;
    }
    outcome := Raised(lastError);
  }
}

=== FILE: scenarios.dfy ===
/** Concrete runs of the model on small inputs. */
module Scenarios {
  import opened Common
  import opened Types
  import opened Config
  import opened Selection
  import opened Adapter
  import opened Strategy
  import opened Executor
  import opened Provider

  /** A rate that only quotes a net supply and a net borrow APY. */
  function Quote(protocol: ProtocolId, token: Token, supply: real, borrow: real): Rate {
    Rate(protocol, token, supply, borrow, supply, borrow, 0.0, supply, borrow,
         0.0, 0.0, 0.0, 0.0, 0.0, 0.0)
  }

  /** USDT at 3.2% on Venus and 4.1% on Aave: the best-yield recommendation for USDT
      supplies on Aave and expects 4.1%. */
  lemma UsdtBestYield()
    ensures var rates := [Quote(Venus, USDT, 3.2, 5.0), Quote(Aave, USDT, 4.1, 5.5)];
      BestYieldStrategy(rates) == [Recommendation(
        BestYield, BestSupplyReason("USDT", 4.1, Aave),
        [TxRequest(Aave, Supply, "USDT", 0.0)], 4.1, Low)]
  {
    var rates := [Quote(Venus, USDT, 3.2, 5.0), Quote(Aave, USDT, 4.1, 5.5)];
    assert rates[..1] == [rates[0]] && [rates[0]][..0] == [];
    assert Symbols([rates[0]]) == ["USDT"];
    assert Symbols(rates) == ["USDT"];
    assert RatesFor(rates, "USDT") == rates;
    assert IsLastMax(rates, NetSupply, 1);
  }

  /** On a tie the generator and the lookup disagree: best yield takes the later
      rate, the best-supply lookup the earlier one. */
  lemma TieBreaksDiffer()
    ensures var rates := [Quote(Venus, USDT, 4.0, 5.0), Quote(Aave, USDT, 4.0, 5.5)];
      && FindBestSupplyRate(rates, "USDT") == Some(rates[0])
      && BestYieldFor(rates, "USDT").Some?
      && BestYieldFor(rates, "USDT").value.actions[0].protocol == Aave
  {
    var rates := [Quote(Venus, USDT, 4.0, 5.0), Quote(Aave, USDT, 4.0, 5.5)];
    assert RatesFor(rates, "USDT") == rates;
    assert IsFirstMax(rates, NetSupply, 0);
    assert IsLastMax(rates, NetSupply, 1);
  }

  /** A gas price of 8 gwei against the ceiling of 5 fails the request before any
      chain call. */
  lemma GasAboveCeiling(request: TxRequest, chain: ChainEnv)
    ensures var s := ExecuteAction(request, World(Ok(Some(8000000000)), chain));
      s.Returned? && s.result.status == Failed && s.calls == [] && s.result.hash == ""
  {
    assert GasPriceGwei(Some(8000000000)) == 8.0;
  }

  /** A chain where every call succeeds, or where the first call throws. */
  function Chain(fails: bool): ChainEnv {
    ChainEnv(true, 0, if fails then Some(ChainFailure(0, "reverted")) else None, Receipt("0xabc", 21000))
  }

  /** Steps A and C succeed, step B throws on its first chain call. */
  function ThreeStepWorld(i: nat): World {
    World(Ok(Some(1000000000)), Chain(i == 1))
  }

  /** A batch [A ok, B fails, C ok] records two results and never attempts C. */
  lemma BatchStopsAfterB()
    ensures var actions := [TxRequest(Venus, Withdraw, "USDT", 1.0),
                            TxRequest(Venus, Withdraw, "USDC", 1.0),
                            TxRequest(Aave, Borrow, "ETH", 1.0)];
      var results := BatchResults(actions, ThreeStepWorld);
      |results| == 2 && results[0].status == Confirmed && results[1].status == Failed
  {
    var actions := [TxRequest(Venus, Withdraw, "USDT", 1.0),
                    TxRequest(Venus, Withdraw, "USDC", 1.0),
                    TxRequest(Aave, Borrow, "ETH", 1.0)];
    assert GasPriceGwei(Some(1000000000)) == 1.0;
    assert Outcome(actions, ThreeStepWorld, 0).status == Confirmed;
    assert Outcome(actions, ThreeStepWorld, 1).status == Failed;
    BatchStopsAtFirstFailure(actions, ThreeStepWorld, 1);
  }

  function AlwaysFails(i: nat): Attempt<int> {
    Failure(if i == 0 then "e1" else if i == 1 then "e2" else "e3")
  }

  /** Three attempts of an always-failing call: three calls, two rotations, and the
      third call's error surfaces. */
  method RetryThreeTimes() returns (outcome: RetryOutcome<int>, calls: nat, finalIndex: nat)
    ensures outcome == Raised(Some("e3")) && calls == 3 && finalIndex == 2
  {
    var delays;
    outcome, calls, delays, finalIndex := WithRetry(AlwaysFails, 3, 1000, 0);
    assert Rotations(0, 2) == 2;
  }
}

=== FILE: selection.dfy ===
/** The two ways the strategy engine reduces a list to its "best" element.
    `reduce((best, x) => key(x) > key(best) ? x : best)` keeps the FIRST maximum,
    `reduce((a, b) => key(a) > key(b) ? a : b)` keeps the LAST one. A minimum is a
    maximum of the negated key. Both reductions return an index into the list. */
module Selection {

  /** `k` indexes a maximum of `key` over `xs` that no earlier element reaches. */
  ghost predicate IsFirstMax<T>(xs: seq<T>, key: T -> real, k: int) {
    && 0 <= k < |xs|
    && (forall j :: 0 <= j < |xs| ==> key(xs[j]) <= key(xs[k]))
    && (forall j :: 0 <= j < k ==> key(xs[j]) < key(xs[k]))
  }

  /** `k` indexes a maximum of `key` over `xs` that no later element reaches. */
  ghost predicate IsLastMax<T>(xs: seq<T>, key: T -> real, k: int) {
    && 0 <= k < |xs|
    && (forall j :: 0 <= j < |xs| ==> key(xs[j]) <= key(xs[k]))
    && (forall j :: k < j < |xs| ==> key(xs[j]) < key(xs[k]))
  }

  /** The element `reduce((best, x) => key(x) > key(best) ? x : best)` returns:
      a later element replaces the current best only when strictly greater. */
  function KeepFirstMax<T>(xs: seq<T>, key: T -> real): (k: nat)
    requires |xs| > 0
    ensures IsFirstMax(xs, key, k)
    decreases |xs|
  {
    if |xs| == 1 then 0
    else
      var prefix := xs[..|xs| - 1];
      var k := KeepFirstMax(prefix, key);
      assert prefix[k] == xs[k];
      if key(xs[|xs| - 1]) > key(xs[k]) then |xs| - 1 else k
  }

  /** The element `reduce((a, b) => key(a) > key(b) ? a : b)` returns: the current
      best survives only when strictly greater, so ties go to the later element. */
  function KeepLastMax<T>(xs: seq<T>, key: T -> real): (k: nat)
    requires |xs| > 0
    ensures IsLastMax(xs, key, k)
    decreases |xs|
  {
    if |xs| == 1 then 0
    else
      var prefix := xs[..|xs| - 1];
      var k := KeepLastMax(prefix, key);
      assert prefix[k] == xs[k];
      if key(xs[k]) > key(xs[|xs| - 1]) then k else |xs| - 1
  }

  /** The first-maximum specification determines the index. */
  lemma FirstMaxUnique<T>(xs: seq<T>, key: T -> real, k1: int, k2: int)
    requires IsFirstMax(xs, key, k1) && IsFirstMax(xs, key, k2)
    ensures k1 == k2
  {
    assert key(xs[k1]) == key(xs[k2]);
  }

  /** The last-maximum specification determines the index. */
  lemma LastMaxUnique<T>(xs: seq<T>, key: T -> real, k1: int, k2: int)
    requires IsLastMax(xs, key, k1) && IsLastMax(xs, key, k2)
    ensures k1 == k2
  {
    assert key(xs[k1]) == key(xs[k2]);
  }

  /** On a tie for the maximum at positions i < j, the first-maximum reduction
      stops at or before i and the last-maximum reduction at or after j. */
  lemma FirstAndLastMaxSplitOnTies<T>(xs: seq<T>, key: T -> real, i: int, j: int)
    requires 0 <= i < j < |xs|
    requires forall t :: 0 <= t < |xs| ==> key(xs[t]) <= key(xs[i])
    requires key(xs[j]) == key(xs[i])
    ensures KeepFirstMax(xs, key) <= i < j <= KeepLastMax(xs, key)
  {
  }
}

=== FILE: strategy.dfy ===
/** The recommendation generators of the strategy engine. Each is a pure function
    of the rate list (and, for rebalancing, of the user's positions). */
module Strategy {
  import opened Common
  import opened Types
  import opened Selection
  import opened Config

  /** A best-yield recommendation needs more than 0.5% APY. */
  const MIN_BEST_YIELD_APY: real := 0.5
  /** An arbitrage needs a spread above one percentage point. */
  const MIN_ARBITRAGE_SPREAD: real := 1.0

  function NetSupply(r: Rate): real {
    r.netSupplyAPY
  }

  /** Maximising the negated borrow rate is minimising the borrow rate. */
  function CheapBorrow(r: Rate): real {
    -r.netBorrowAPY
  }

  function RiskOf(token: Token): Risk {
    if token.isStablecoin then Low else Medium
  }

  /** The token a recommendation acts on (its first action's). */
  function Target(rec: Recommendation): string {
    if |rec.actions| > 0 then rec.actions[0].token else ""
  }

  /** The rates quoted for `symbol`, in list order. */
  function RatesFor(rates: seq<Rate>, symbol: string): (rs: seq<Rate>)
    ensures |rs| <= |rates|
    ensures forall i :: 0 <= i < |rs| ==> rs[i] in rates && rs[i].token.symbol == symbol
    ensures forall i :: 0 <= i < |rates| && rates[i].token.symbol == symbol ==> rates[i] in rs
    decreases |rates|
  {
    if |rates| == 0 then []
    else if rates[0].token.symbol == symbol then [rates[0]] + RatesFor(rates[1..], symbol)
    else RatesFor(rates[1..], symbol)
  }

  /** The distinct symbols of the list in first-occurrence order: the key order of
      the engine's per-token grouping map. */
  function Symbols(rates: seq<Rate>): (syms: seq<string>)
    ensures Distinct(syms)
    ensures forall i :: 0 <= i < |rates| ==> rates[i].token.symbol in syms
    ensures forall s :: s in syms ==> exists i :: 0 <= i < |rates| && rates[i].token.symbol == s
    decreases |rates|
  {
    if |rates| == 0 then []
    else
      var prefix := rates[..|rates| - 1];
      var last := rates[|rates| - 1];
      var d := Symbols(prefix);
      assert forall i :: 0 <= i < |prefix| ==> rates[i] == prefix[i];
      if last.token.symbol in d then d else d + [last.token.symbol]
  }

  // ---- best supply / borrow rate lookups ----

  /** The best supply rate for a symbol: the FIRST rate with the highest net supply
      APY, or None when no rate quotes the symbol. */
  function FindBestSupplyRate(rates: seq<Rate>, symbol: string): (best: Option<Rate>)
    ensures best.None? <==> forall i :: 0 <= i < |rates| ==> rates[i].token.symbol != symbol
    ensures best.Some? ==> best.value in rates && best.value.token.symbol == symbol
    ensures best.Some? ==> forall i :: 0 <= i < |rates| && rates[i].token.symbol == symbol ==>
      rates[i].netSupplyAPY <= best.value.netSupplyAPY
    ensures best.Some? ==> forall k :: IsFirstMax(RatesFor(rates, symbol), NetSupply, k) ==>
      best.value == RatesFor(rates, symbol)[k]
  {
    var g := RatesFor(rates, symbol);
    if |g| == 0 then None
    else
      var k := KeepFirstMax(g, NetSupply);
      forall k' | IsFirstMax(g, NetSupply, k')
        ensures g[k] == g[k']
      {
        FirstMaxUnique(g, NetSupply, k, k');
      }
      forall i | 0 <= i < |rates| && rates[i].token.symbol == symbol
        ensures rates[i].netSupplyAPY <= g[k].netSupplyAPY
      {
        assert rates[i] in g;
      }
      Some(g[k])
  }

  /** The best borrow rate for a symbol: the FIRST rate with the lowest net borrow
      APY, or None when no rate quotes the symbol. */
  function FindBestBorrowRate(rates: seq<Rate>, symbol: string): (best: Option<Rate>)
    ensures best.None? <==> forall i :: 0 <= i < |rates| ==> rates[i].token.symbol != symbol
    ensures best.Some? ==> best.value in rates && best.value.token.symbol == symbol
    ensures best.Some? ==> forall i :: 0 <= i < |rates| && rates[i].token.symbol == symbol ==>
      best.value.netBorrowAPY <= rates[i].netBorrowAPY
    ensures best.Some? ==> forall k :: IsFirstMax(RatesFor(rates, symbol), CheapBorrow, k) ==>
      best.value == RatesFor(rates, symbol)[k]
  {
    var g := RatesFor(rates, symbol);
    if |g| == 0 then None
    else
      var k := KeepFirstMax(g, CheapBorrow);
      forall k' | IsFirstMax(g, CheapBorrow, k')
        ensures g[k] == g[k']
      {
        FirstMaxUnique(g, CheapBorrow, k, k');
      }
      forall i | 0 <= i < |rates| && rates[i].token.symbol == symbol
        ensures g[k].netBorrowAPY <= rates[i].netBorrowAPY
      {
        assert rates[i] in g;
        assert CheapBorrow(rates[i]) <= CheapBorrow(g[k]);
      }
      Some(g[k])
  }

  /** The stablecoin rates, in list order. */
  function Stablecoins(rates: seq<Rate>): (rs: seq<Rate>)
    ensures |rs| <= |rates|
    ensures forall i :: 0 <= i < |rs| ==> rs[i] in rates && rs[i].token.isStablecoin
    ensures forall i :: 0 <= i < |rates| && rates[i].token.isStablecoin ==> rates[i] in rs
    decreases |rates|
  {
    if |rates| == 0 then []
    else if rates[0].token.isStablecoin then [rates[0]] + Stablecoins(rates[1..])
    else Stablecoins(rates[1..])
  }

  /** The recommendations `f` makes for each key, in key order. */
  function Collect<K>(keys: seq<K>, f: K -> Option<Recommendation>): (recs: seq<Recommendation>)
    ensures |recs| <= |keys|
    ensures forall k :: k in keys && f(k).Some? ==> f(k).value in recs
    ensures forall r :: r in recs ==> exists k :: k in keys && f(k) == Some(r)
    decreases |keys|
  {
    if |keys| == 0 then []
    else
      var rest := Collect(keys[1..], f);
      assert forall k :: k in keys[1..] ==> k in keys;
      assert forall k :: k in keys ==> k == keys[0] || k in keys[1..];
      match f(keys[0])
      case None => rest
      case Some(r) => [r] + rest
  }

  /** Over distinct symbols, a per-symbol generator whose recommendations act on
      their own symbol yields one recommendation per symbol at most. */
  lemma {:induction false} CollectTargetsDistinct(syms: seq<string>, f: string -> Option<Recommendation>)
    requires Distinct(syms)
    requires forall s :: f(s).Some? ==> Target(f(s).value) == s
    ensures forall i, j :: 0 <= i < j < |Collect(syms, f)| ==>
      Target(Collect(syms, f)[i]) != Target(Collect(syms, f)[j])
    ensures forall i :: 0 <= i < |Collect(syms, f)| ==> Target(Collect(syms, f)[i]) in syms
    decreases |syms|
  {
    if |syms| > 0 {
      var rest := Collect(syms[1..], f);
      CollectTargetsDistinct(syms[1..], f);
      assert forall t :: t in syms[1..] ==> t != syms[0];
      assert forall t :: t in syms[1..] ==> t in syms;
      match f(syms[0])
      case None =>
      case Some(r) =>
        var recs := [r] + rest;
        assert Collect(syms, f) == recs;
        forall i, j | 0 <= i < j < |recs|
          ensures Target(recs[i]) != Target(recs[j])
        {
          if i == 0 {
            assert recs[j] == rest[j - 1];
          } else {
            assert recs[i] == rest[i - 1] && recs[j] == rest[j - 1];
          }
        }
        forall i | 0 <= i < |recs|
          ensures Target(recs[i]) in syms
        {
          if i > 0 {
            assert recs[i] == rest[i - 1];
          }
        }
    }
  }

  // ---- best yield ----

  /** The best-yield recommendation for one token: supply it where its net supply APY
      is highest (ties go to the later rate), if that APY exceeds 0.5%. */
  function BestYieldFor(rates: seq<Rate>, symbol: string): (rec: Option<Recommendation>)
    ensures rec.Some? <==> (exists i :: 0 <= i < |rates| && rates[i].token.symbol == symbol &&
                                        rates[i].netSupplyAPY > MIN_BEST_YIELD_APY)
    ensures rec.Some? ==> rec.value.strategy == BestYield && Target(rec.value) == symbol
    ensures rec.Some? ==> forall i :: 0 <= i < |rates| && rates[i].token.symbol == symbol ==>
      rates[i].netSupplyAPY <= rec.value.expectedAPY
    ensures var g := RatesFor(rates, symbol);
      forall k :: IsLastMax(g, NetSupply, k) && rec.Some? ==>
        rec.value == Recommendation(
          BestYield,
          BestSupplyReason(symbol, g[k].netSupplyAPY, g[k].protocol),
          [TxRequest(g[k].protocol, Supply, symbol, 0.0)],
          g[k].netSupplyAPY,
          RiskOf(g[k].token))
  {
    var g := RatesFor(rates, symbol);
    if |g| == 0 then None
    else
      var k := KeepLastMax(g, NetSupply);
      var best := g[k];
      forall k' | IsLastMax(g, NetSupply, k')
        ensures k' == k
      {
        LastMaxUnique(g, NetSupply, k, k');
      }
      forall i | 0 <= i < |rates| && rates[i].token.symbol == symbol
        ensures rates[i].netSupplyAPY <= best.netSupplyAPY
      {
        assert rates[i] in g;
      }
      assert best in rates;
      if best.netSupplyAPY > MIN_BEST_YIELD_APY then
        Some(Recommendation(
          BestYield,
          BestSupplyReason(symbol, best.netSupplyAPY, best.protocol),
          [TxRequest(best.protocol, Supply, symbol, 0.0)],
          best.netSupplyAPY,
          RiskOf(best.token)))
      else None
  }

  /** One best-yield recommendation per token whose best rate qualifies, and no other. */
  function BestYieldStrategy(rates: seq<Rate>): (recs: seq<Recommendation>)
    ensures forall i :: 0 <= i < |recs| ==> recs[i].strategy == BestYield
    ensures forall i, j :: 0 <= i < j < |recs| ==> Target(recs[i]) != Target(recs[j])
    ensures forall i :: 0 <= i < |recs| ==> BestYieldFor(rates, Target(recs[i])) == Some(recs[i])
    ensures forall i :: 0 <= i < |rates| && rates[i].netSupplyAPY > MIN_BEST_YIELD_APY ==>
      BestYieldFor(rates, rates[i].token.symbol).Some? &&
      BestYieldFor(rates, rates[i].token.symbol).value in recs
  {
    var syms := Symbols(rates);
    var f := s => BestYieldFor(rates, s);
    CollectTargetsDistinct(syms, f);
    var recs := Collect(syms, f);
    forall i | 0 <= i < |recs|
      ensures BestYieldFor(rates, Target(recs[i])) == Some(recs[i])
    {
      assert recs[i] in recs;
      var s :| s in syms && f(s) == Some(recs[i]);
    }
    recs
  }

  // ---- stable yield ----

  /** At most one recommendation: supply the stablecoin rate with the highest net
      supply APY (ties go to the later rate), at low risk. */
  function StableYieldStrategy(rates: seq<Rate>): (recs: seq<Recommendation>)
    ensures |recs| <= 1
    ensures |recs| == 0 <==> forall i :: 0 <= i < |rates| ==> !rates[i].token.isStablecoin
    ensures forall i :: 0 <= i < |recs| ==> recs[i].strategy == StableYield && recs[i].risk == Low
    ensures |recs| == 1 ==> forall i :: 0 <= i < |rates| && rates[i].token.isStablecoin ==>
      rates[i].netSupplyAPY <= recs[0].expectedAPY
    ensures var g := Stablecoins(rates);
      forall k :: IsLastMax(g, NetSupply, k) && |recs| == 1 ==>
        recs[0] == Recommendation(
          StableYield,
          StableReason(g[k].token.symbol, g[k].netSupplyAPY, g[k].protocol),
          [TxRequest(g[k].protocol, Supply, g[k].token.symbol, 0.0)],
          g[k].netSupplyAPY,
          Low)
  {
    var g := Stablecoins(rates);
    if |g| == 0 then []
    else
      var k := KeepLastMax(g, NetSupply);
      var best := g[k];
      forall k' | IsLastMax(g, NetSupply, k')
        ensures k' == k
      {
        LastMaxUnique(g, NetSupply, k, k');
      }
      forall i | 0 <= i < |rates| && rates[i].token.isStablecoin
        ensures rates[i].netSupplyAPY <= best.netSupplyAPY
      {
        assert rates[i] in g;
      }
      assert g[0] in rates;
      [Recommendation(
        StableYield,
        StableReason(best.token.symbol, best.netSupplyAPY, best.protocol),
        [TxRequest(best.protocol, Supply, best.token.symbol, 0.0)],
        best.netSupplyAPY,
        Low)]
  }

  // ---- rate arbitrage ----

  /** The arbitrage between a chosen supply rate and a chosen borrow rate of one
      token: only across two protocols and for a spread above one percentage point. */
  function ArbitrageOf(symbol: string, supply: Rate, borrow: Rate): (rec: Option<Recommendation>)
    ensures rec.Some? <==> supply.protocol != borrow.protocol &&
                           supply.netSupplyAPY - borrow.netBorrowAPY > MIN_ARBITRAGE_SPREAD
    ensures rec.Some? ==>
      && rec.value.strategy == RateArbitrage && rec.value.risk == High
      && rec.value.expectedAPY == supply.netSupplyAPY - borrow.netBorrowAPY
      && rec.value.actions == [TxRequest(supply.protocol, Supply, symbol, 0.0),
                               TxRequest(borrow.protocol, Borrow, symbol, 0.0)]
  {
    var spread := supply.netSupplyAPY - borrow.netBorrowAPY;
    if supply.protocol != borrow.protocol && spread > MIN_ARBITRAGE_SPREAD then
      Some(Recommendation(
        RateArbitrage,
        ArbitrageReason(symbol, supply.protocol, supply.netSupplyAPY,
                        borrow.protocol, borrow.netBorrowAPY, spread),
        [TxRequest(supply.protocol, Supply, symbol, 0.0),
         TxRequest(borrow.protocol, Borrow, symbol, 0.0)],
        spread,
        High))
    else None
  }

  /** The arbitrage for one token quoted at least twice: supply where the net supply
      APY is highest and borrow where the net borrow APY is lowest, ties going to the
      later rate in both. */
  function ArbitrageFor(rates: seq<Rate>, symbol: string): (rec: Option<Recommendation>)
    ensures |RatesFor(rates, symbol)| < 2 ==> rec.None?
    ensures rec.Some? ==> rec.value.strategy == RateArbitrage && Target(rec.value) == symbol
    ensures var g := RatesFor(rates, symbol);
      forall ks, kb :: |g| >= 2 && IsLastMax(g, NetSupply, ks) && IsLastMax(g, CheapBorrow, kb) ==>
        rec == ArbitrageOf(symbol, g[ks], g[kb])
  {
    var g := RatesFor(rates, symbol);
    if |g| < 2 then None
    else
      var ks := KeepLastMax(g, NetSupply);
      var kb := KeepLastMax(g, CheapBorrow);
      forall ks', kb' | IsLastMax(g, NetSupply, ks') && IsLastMax(g, CheapBorrow, kb')
        ensures ks' == ks && kb' == kb
      {
        LastMaxUnique(g, NetSupply, ks, ks');
        LastMaxUnique(g, CheapBorrow, kb, kb');
      }
      ArbitrageOf(symbol, g[ks], g[kb])
  }

  /** One arbitrage per qualifying token, and no other. */
  function RateArbitrageStrategy(rates: seq<Rate>): (recs: seq<Recommendation>)
    ensures forall i :: 0 <= i < |recs| ==> recs[i].strategy == RateArbitrage
    ensures forall i, j :: 0 <= i < j < |recs| ==> Target(recs[i]) != Target(recs[j])
    ensures forall i :: 0 <= i < |recs| ==> ArbitrageFor(rates, Target(recs[i])) == Some(recs[i])
    ensures forall i :: 0 <= i < |rates| && ArbitrageFor(rates, rates[i].token.symbol).Some? ==>
      ArbitrageFor(rates, rates[i].token.symbol).value in recs
  {
    var syms := Symbols(rates);
    var f := s => ArbitrageFor(rates, s);
    CollectTargetsDistinct(syms, f);
    var recs := Collect(syms, f);
    forall i | 0 <= i < |recs|
      ensures ArbitrageFor(rates, Target(recs[i])) == Some(recs[i])
    {
      assert recs[i] in recs;
      var s :| s in syms && f(s) == Some(recs[i]);
    }
    recs
  }

  // ---- rebalance ----

  /** The rebalance threshold in percentage points. It is always the default
      configuration's, whatever configuration the agent runs with. */
  const REBALANCE_THRESHOLD: real := DEFAULT_CONFIG.rebalanceThreshold / 100.0

  /** Move a supply position to the protocol with the best rate for its token when
      that is a different protocol and beats the position's APY by more than the
      threshold; the whole position amount is withdrawn and re-supplied. */
  function RebalanceFor(rates: seq<Rate>, position: Position): (rec: Option<Recommendation>)
    ensures var best := FindBestSupplyRate(rates, position.token.symbol);
      rec.Some? <==>
        && position.kind == SupplyPosition
        && best.Some?
        && best.value.protocol != position.protocol
        && best.value.netSupplyAPY - position.apy > REBALANCE_THRESHOLD
    ensures rec.Some? ==>
      var symbol := position.token.symbol;
      && rec.value.strategy == Rebalance && rec.value.risk == Low
      && (forall i :: 0 <= i < |rates| && rates[i].token.symbol == symbol ==>
            rates[i].netSupplyAPY <= rec.value.expectedAPY)
      && rec.value.expectedAPY - position.apy > REBALANCE_THRESHOLD
      && |rec.value.actions| == 2
      && rec.value.actions[0] == TxRequest(position.protocol, Withdraw, symbol, position.amount)
      && rec.value.actions[1].action == Supply
      && rec.value.actions[1].protocol != position.protocol
      && rec.value.actions[1].token == symbol
      && rec.value.actions[1].amount == position.amount
    ensures rec.Some? ==>
      var best := FindBestSupplyRate(rates, position.token.symbol).value;
      && rec.value.expectedAPY == best.netSupplyAPY
      && rec.value.actions[1].protocol == best.protocol
  {
    if position.kind != SupplyPosition then None
    else
      match FindBestSupplyRate(rates, position.token.symbol)
      case None => None
      case Some(best) =>
        var improvement := best.netSupplyAPY - position.apy;
        if best.protocol != position.protocol && improvement > REBALANCE_THRESHOLD then
          var symbol := position.token.symbol;
          Some(Recommendation(
            Rebalance,
            RebalanceReason(symbol, position.protocol, position.apy, best.protocol,
                            best.netSupplyAPY, improvement),
            [TxRequest(position.protocol, Withdraw, symbol, position.amount),
             TxRequest(best.protocol, Supply, symbol, position.amount)],
            best.netSupplyAPY,
            Low))
        else None
  }

  /** The rebalances of the user's positions, one per position at most, in position order. */
  function CheckRebalance(rates: seq<Rate>, positions: seq<Position>): (recs: seq<Recommendation>)
    ensures |recs| <= |positions|
    ensures forall p :: p in positions && RebalanceFor(rates, p).Some? ==> RebalanceFor(rates, p).value in recs
    ensures forall r :: r in recs ==> exists p :: p in positions && p.kind == SupplyPosition && RebalanceFor(rates, p) == Some(r)
  {
    Collect(positions, p => RebalanceFor(rates, p))
  }

  // ---- ranking ----

  ghost predicate SortedByAPY(recs: seq<Recommendation>) {
    forall i, j :: 0 <= i < j < |recs| ==> recs[i].expectedAPY >= recs[j].expectedAPY
  }

  /** Insert before the first recommendation whose APY does not exceed `rec`'s. */
  function InsertByAPY(rec: Recommendation, recs: seq<Recommendation>): (out: seq<Recommendation>)
    requires SortedByAPY(recs)
    ensures SortedByAPY(out)
    ensures multiset(out) == multiset(recs) + multiset{rec}
    decreases |recs|
  {
    if |recs| == 0 || recs[0].expectedAPY <= rec.expectedAPY then [rec] + recs
    else
      var rest := InsertByAPY(rec, recs[1..]);
      assert recs == [recs[0]] + recs[1..];
      forall j | 0 <= j < |rest|
        ensures recs[0].expectedAPY >= rest[j].expectedAPY
      {
        assert rest[j] in multiset(rest);
        assert rest[j] == rec || rest[j] in recs[1..];
      }
      [recs[0]] + rest
  }

  /** The stable descending sort `sort((a, b) => b.expectedAPY - a.expectedAPY)`. */
  function SortByAPY(recs: seq<Recommendation>): (out: seq<Recommendation>)
    ensures SortedByAPY(out)
    ensures multiset(out) == multiset(recs)
    decreases |recs|
  {
    if |recs| == 0 then []
    else
      assert recs == [recs[0]] + recs[1..];
      InsertByAPY(recs[0], SortByAPY(recs[1..]))
  }

  /** A list already in descending APY order is left as it is. */
  lemma {:induction false} SortByAPYKeepsSorted(recs: seq<Recommendation>)
    requires SortedByAPY(recs)
    ensures SortByAPY(recs) == recs
    decreases |recs|
  {
    if |recs| > 0 {
      SortByAPYKeepsSorted(recs[1..]);
      assert SortByAPY(recs[1..]) == recs[1..];
      assert recs == [recs[0]] + recs[1..];
    }
  }

  /** A permutation of `others + rb`, where no recommendation of `others` is a
      rebalance, takes its rebalances from `rb`. */
  lemma RebalancesComeFrom(others: seq<Recommendation>, rb: seq<Recommendation>, recs: seq<Recommendation>)
    requires forall i :: 0 <= i < |others| ==> others[i].strategy != Rebalance
    requires multiset(recs) == multiset(others + rb)
    ensures forall i :: 0 <= i < |recs| && recs[i].strategy == Rebalance ==> recs[i] in rb
  {
    forall i | 0 <= i < |recs| && recs[i].strategy == Rebalance
      ensures recs[i] in rb
    {
      assert recs[i] in multiset(others + rb);
      assert recs[i] in others + rb;
      assert recs[i] !in others;
    }
  }

  /** No recommendation of the three rate-only strategies is a rebalance. */
  lemma NoRebalanceAmong(best: seq<Recommendation>, stable: seq<Recommendation>, arbitrage: seq<Recommendation>)
    requires forall i :: 0 <= i < |best| ==> best[i].strategy == BestYield
    requires forall i :: 0 <= i < |stable| ==> stable[i].strategy == StableYield
    requires forall i :: 0 <= i < |arbitrage| ==> arbitrage[i].strategy == RateArbitrage
    ensures forall i :: 0 <= i < |best + stable + arbitrage| ==> (best + stable + arbitrage)[i].strategy != Rebalance
  {
  }

  /** Every candidate, before ranking: best yield, stable yield, arbitrage, and the
      rebalances when a user address is given. */
  function Candidates(rates: seq<Rate>, userAddress: string, positions: seq<Position>): seq<Recommendation> {
    BestYieldStrategy(rates) + StableYieldStrategy(rates) + RateArbitrageStrategy(rates)
      + (if userAddress != "" then CheckRebalance(rates, positions) else [])
  }

  /** All recommendations ranked by expected APY, highest first. Rebalances appear
      only for a user address, and only for that user's positions. */
  function GenerateRecommendations(rates: seq<Rate>, userAddress: string, positions: seq<Position>): (recs: seq<Recommendation>)
    ensures SortedByAPY(recs)
    ensures multiset(recs) == multiset(Candidates(rates, userAddress, positions))
    ensures userAddress == "" ==> forall i :: 0 <= i < |recs| ==> recs[i].strategy != Rebalance
    ensures forall i :: 0 <= i < |recs| && recs[i].strategy == Rebalance ==>
      recs[i] in CheckRebalance(rates, positions)
  {
    var best := BestYieldStrategy(rates);
    var st := StableYieldStrategy(rates);
    var ar := RateArbitrageStrategy(rates);
    var rb := if userAddress != "" then CheckRebalance(rates, positions) else [];
    var all := best + st + ar + rb;
    var recs := SortByAPY(all);
    var others := best + st + ar;
    NoRebalanceAmong(best, st, ar);
    assert all == others + rb;
    RebalancesComeFrom(others, rb, recs);
    recs
  }
}

=== FILE: types.dfy ===
/** The entities the yield agent passes between its components: tokens, normalised
    market rates, positions, action requests and results, recommendations and the
    batch records of the action log. */
module Types {
  import opened Common

  /** A lending protocol. Rates and positions only ever name the two real ones; a
      request can carry any name at run time, which the executor must reject. */
  datatype ProtocolId = Venus | Aave | OtherProtocol(name: string)

  /** The kind of a state-changing request; any other name reaching the
      executor at run time is `OtherAction`. */
  datatype ActionKind = Supply | Withdraw | Borrow | Repay | Claim | OtherAction(name: string)

  datatype Token = Token(symbol: string, name: string, address: string, decimals: nat, isStablecoin: bool)

  /** One market's rates normalised to annual percentages. Amounts are in token units. */
  datatype Rate = Rate(
    protocol: ProtocolId,
    token: Token,
    supplyAPY: real,
    borrowAPY: real,
    supplyAPR: real,
    borrowAPR: real,
    rewardAPY: real,
    netSupplyAPY: real,
    netBorrowAPY: real,
    totalSupply: real,
    totalBorrow: real,
    utilization: real,
    liquidity: real,
    collateralFactor: real,
    liquidationThreshold: real)

  datatype PositionKind = SupplyPosition | BorrowPosition

  datatype Position = Position(
    protocol: ProtocolId,
    token: Token,
    kind: PositionKind,
    amount: real,
    amountUSD: real,
    apy: real,
    earnedRewards: real)

  /** A JavaScript number: a finite real or one of the non-finite values a
      division by zero produces. */
  datatype JsNumber = Finite(value: real) | PositiveInfinity | NegativeInfinity | NaN

  datatype PortfolioSummary = PortfolioSummary(
    totalSuppliedUSD: real,
    totalBorrowedUSD: real,
    netWorthUSD: real,
    weightedSupplyAPY: real,
    weightedBorrowAPY: real,
    netAPY: JsNumber,
    healthFactor: real,
    positions: seq<Position>)

  /** A requested action; an amount of 0 means the caller has to choose one. */
  datatype TxRequest = TxRequest(protocol: ProtocolId, action: ActionKind, token: string, amount: real)

  datatype TxStatus = Pending | Confirmed | Failed

  /** Why a result is `Failed`. `Thrown` carries the message of a caught exception. */
  datatype TxError =
    | GasTooHigh(gasPriceGwei: real, maxGasPrice: real)
    | UnknownProtocol(name: string)
    | Thrown(message: string)

  datatype TxResult = TxResult(
    hash: string,
    status: TxStatus,
    action: ActionKind,
    token: string,
    amount: real,
    protocol: ProtocolId,
    gasUsed: Option<nat>,
    error: Option<TxError>)

  datatype Risk = Low | Medium | High

  datatype StrategyKind = BestYield | StableYield | RateArbitrage | Rebalance {
    /** The strategy name written into batch records. */
    function Name(): string {
      match this
      case BestYield => "best-yield"
      case StableYield => "stable-yield"
      case RateArbitrage => "rate-arbitrage"
      case Rebalance => "rebalance"
    }
  }

  /** The values a recommendation's human-readable rationale interpolates. */
  datatype Rationale =
    | BestSupplyReason(symbol: string, apy: real, protocol: ProtocolId)
    | StableReason(symbol: string, apy: real, protocol: ProtocolId)
    | ArbitrageReason(symbol: string, supplyProtocol: ProtocolId, supplyAPY: real,
                      borrowProtocol: ProtocolId, borrowAPY: real, spread: real)
    | RebalanceReason(symbol: string, fromProtocol: ProtocolId, fromAPY: real,
                      toProtocol: ProtocolId, toAPY: real, improvement: real)

  datatype Recommendation = Recommendation(
    strategy: StrategyKind,
    reasoning: Rationale,
    actions: seq<TxRequest>,
    expectedAPY: real,
    risk: Risk)

  /** One batch record of the action log. `results` may be a strict prefix-length
      list when the batch stopped at a failure. */
  datatype AgentAction = AgentAction(
    id: string,
    timestamp: int,
    strategy: string,
    actions: seq<TxRequest>,
    results: seq<TxResult>,
    reasoning: Rationale)

  /** The tunable thresholds of the agent. `rebalanceThreshold` is in basis points,
      `maxGasPrice` in gwei. */
  datatype StrategyConfig = StrategyConfig(
    rebalanceThreshold: real,
    maxGasPrice: real,
    emergencyWithdrawThreshold: real,
    intervalMs: nat)
}

=== FILE: venus.dfy ===
/** The Venus core-pool adapter: per-block rates scaled by a 1e18 mantissa, account
    snapshots, comptroller liquidity, and the five write calls. */
module Venus {
  import opened Common
  import opened Types
  import opened Config
  import opened RealMath
  import opened Adapter

  /** About three seconds per block on the chain. */
  const BLOCKS_PER_YEAR: nat := 10512000
  const MANTISSA: real := 1000000000000000000.0

  /** The XVS reward branch only runs when the vToken table lists an XVS market. */
  const XVS_LISTED: bool := "XVS" in VENUS_MARKETS

  /** The raw reads of one market. Rates are per block, scaled by the mantissa. */
  datatype MarketData = MarketData(
    supplyRatePerBlock: nat,
    borrowRatePerBlock: nat,
    totalSupply: nat,
    totalBorrows: nat,
    cash: nat,
    exchangeRate: nat,
    reserveFactor: nat,
    collateralFactorMantissa: nat)

  /** A market's reads plus the comptroller's XVS supply and borrow speeds, read
      together (either may fail). */
  datatype MarketInput = MarketInput(data: MarketData, supplySpeed: Fallible<nat>, borrowSpeed: Fallible<nat>)

  function APR(ratePerBlock: nat): real {
    (ratePerBlock as real) * (BLOCKS_PER_YEAR as real) / MANTISSA * 100.0
  }

  function APY(ratePerBlock: nat): real {
    CompoundedAPY((ratePerBlock as real) / MANTISSA, BLOCKS_PER_YEAR)
  }

  /** APR = r*B*100 and APY = ((1+r)^B - 1)*100 with r = raw/1e18: APY is 0 at a zero
      rate, grows with the rate, and is never below the APR (strictly above for a
      positive rate). */
  lemma APYProperties(raw1: nat, raw2: nat)
    requires raw1 <= raw2
    ensures APY(0) == 0.0 && APR(0) == 0.0
    ensures 0.0 <= APY(raw1) <= APY(raw2)
    ensures raw1 < raw2 ==> APY(raw1) < APY(raw2)
    ensures APR(raw1) <= APY(raw1)
    ensures raw1 > 0 ==> APR(raw1) < APY(raw1)
  {
    var r1, r2 := (raw1 as real) / MANTISSA, (raw2 as real) / MANTISSA;
    CompoundedAPYZero(BLOCKS_PER_YEAR);
    CompoundedAPYMonotone(r1, r2, BLOCKS_PER_YEAR);
    if raw1 < raw2 {
      CompoundedAPYStrictlyMonotone(r1, r2, BLOCKS_PER_YEAR);
    }
    CompoundedAPYAtLeastSimple(r1, BLOCKS_PER_YEAR);
    assert APR(raw1) == (BLOCKS_PER_YEAR as real) * r1 * 100.0;
  }

  /** The placeholder XVS reward: 0.5 when the reward branch runs and the supply
      speed is positive, 0 otherwise or when either speed read throws (the two
      reads are awaited together, so one failure skips the branch). */
  function RewardAPY(xvsListed: bool, supplySpeed: Fallible<nat>, borrowSpeed: Fallible<nat>): (reward: real)
    ensures reward == 0.0 || reward == 0.5
    ensures reward > 0.0 <==>
      xvsListed && supplySpeed.Ok? && borrowSpeed.Ok? && supplySpeed.value > 0
  {
    match supplySpeed
    case Throws(_) => 0.0
    case Ok(speed) =>
      if borrowSpeed.Throws? then 0.0
      else if xvsListed then
        var xvsPerYear := (speed as real) * (BLOCKS_PER_YEAR as real) / MANTISSA;
        if xvsPerYear > 0.0 then 0.5 else 0.0
      else 0.0
  }

  /** With the configured market table the reward branch never runs. */
  lemma NoRewardWithConfiguredMarkets(supplySpeed: Fallible<nat>, borrowSpeed: Fallible<nat>)
    ensures !XVS_LISTED
    ensures RewardAPY(XVS_LISTED, supplySpeed, borrowSpeed) == 0.0
  {
  }

  /** borrows / (cash + borrows) as a percentage, 0 for an empty market. */
  function Utilization(totalBorrows: nat, cash: nat): (u: real)
    ensures 0.0 <= u <= 100.0
    ensures u == 0.0 <==> totalBorrows == 0
    ensures u == 100.0 <==> totalBorrows > 0 && cash == 0
    ensures totalBorrows + cash > 0 ==> u * ((totalBorrows + cash) as real) == (totalBorrows as real) * 100.0
  {
    var b, c := totalBorrows as real, cash as real;
    if b > 0.0 || c > 0.0 then (b / (c + b)) * 100.0 else 0.0
  }

  /** One market's normalised rate. */
  function MarketRate(token: Token, input: MarketInput): (r: Rate)
    ensures r.protocol == Venus && r.token == token
    ensures r.supplyAPY == APY(input.data.supplyRatePerBlock) && r.borrowAPY == APY(input.data.borrowRatePerBlock)
    ensures r.supplyAPR == APR(input.data.supplyRatePerBlock) && r.borrowAPR == APR(input.data.borrowRatePerBlock)
    ensures r.rewardAPY == RewardAPY(XVS_LISTED, input.supplySpeed, input.borrowSpeed) == 0.0
    ensures r.netSupplyAPY == r.supplyAPY + r.rewardAPY
    ensures r.netBorrowAPY == r.borrowAPY - r.rewardAPY
    ensures r.utilization == Utilization(input.data.totalBorrows, input.data.cash)
    ensures 0.0 <= r.utilization <= 100.0
    ensures r.totalSupply * Unit(token.decimals) * MANTISSA == (input.data.totalSupply as real) * (input.data.exchangeRate as real)
    ensures r.totalBorrow == FromWei(input.data.totalBorrows, token.decimals)
    ensures r.liquidity == FromWei(input.data.cash, token.decimals)
    ensures r.liquidationThreshold == r.collateralFactor
    ensures r.collateralFactor == (input.data.collateralFactorMantissa as real) / MANTISSA
    ensures 0.0 <= r.supplyAPR <= r.supplyAPY && 0.0 <= r.borrowAPR <= r.borrowAPY
  {
    var d := input.data;
    var supplyAPY := APY(d.supplyRatePerBlock);
    var borrowAPY := APY(d.borrowRatePerBlock);
    APYProperties(d.supplyRatePerBlock, d.supplyRatePerBlock);
    APYProperties(d.borrowRatePerBlock, d.borrowRatePerBlock);
    var reward := RewardAPY(XVS_LISTED, input.supplySpeed, input.borrowSpeed);
    var exchangeRate := (d.exchangeRate as real) / MANTISSA;
    var collateralFactor := (d.collateralFactorMantissa as real) / MANTISSA;
    Rate(
      Venus, token,
      supplyAPY, borrowAPY,
      APR(d.supplyRatePerBlock), APR(d.borrowRatePerBlock),
      reward, supplyAPY + reward, borrowAPY - reward,
      (d.totalSupply as real) * exchangeRate / Unit(token.decimals),
      FromWei(d.totalBorrows, token.decimals),
      Utilization(d.totalBorrows, d.cash),
      FromWei(d.cash, token.decimals),
      collateralFactor, collateralFactor)
  }

  /** A market with a higher per-block supply rate ranks strictly higher in net
      supply APY, the key every strategy compares. */
  lemma HigherSupplyRateRanksHigher(token: Token, a: MarketInput, b: MarketInput)
    requires a.data.supplyRatePerBlock < b.data.supplyRatePerBlock
    ensures MarketRate(token, a).netSupplyAPY < MarketRate(token, b).netSupplyAPY
  {
    APYProperties(a.data.supplyRatePerBlock, b.data.supplyRatePerBlock);
  }

  /** Per-token rate reads after retries: the symbols whose read failed are skipped. */
  function Rates(markets: seq<string>, fetched: string -> Fallible<MarketInput>): (rs: seq<Rate>)
    ensures |rs| <= |markets|
    ensures forall i :: 0 <= i < |rs| ==> rs[i].protocol == Venus && rs[i].token.symbol in markets
    ensures Distinct(markets) ==> forall i, j :: 0 <= i < j < |rs| ==> rs[i].token.symbol != rs[j].token.symbol
    decreases |markets|
  {
    if |markets| == 0 then []
    else
      var sym := markets[0];
      var rest := Rates(markets[1..], fetched);
      assert Distinct(markets) ==> sym !in markets[1..];
      if sym in TOKENS && TOKENS[sym].symbol == sym && fetched(sym).Ok? then
        [MarketRate(TOKENS[sym], fetched(sym).value)] + rest
      else rest
  }

  /** `r` is the rate the listed market `sym` yields when its read succeeds. */
  predicate QuotedBy(r: Rate, sym: string, fetched: string -> Fallible<MarketInput>) {
    sym in TOKENS && TOKENS[sym].symbol == sym && fetched(sym).Ok? && r == MarketRate(TOKENS[sym], fetched(sym).value)
  }

  /** The rates are exactly those of the listed markets whose read succeeded: a
      market whose read throws contributes nothing, every other one its rate. */
  lemma {:induction false} RatesComplete(markets: seq<string>, fetched: string -> Fallible<MarketInput>)
    ensures forall sym, r :: sym in markets && QuotedBy(r, sym, fetched) ==> r in Rates(markets, fetched)
    ensures forall r :: r in Rates(markets, fetched) ==> exists sym :: sym in markets && QuotedBy(r, sym, fetched)
    decreases |markets|
  {
    if |markets| > 0 {
      RatesComplete(markets[1..], fetched);
      forall sym | sym in markets ensures sym == markets[0] || sym in markets[1..] {}
      forall r | r in Rates(markets, fetched)
        ensures exists sym :: sym in markets && QuotedBy(r, sym, fetched)
      {
        if r in Rates(markets[1..], fetched) {
          var sym :| sym in markets[1..] && QuotedBy(r, sym, fetched);
          assert sym in markets;
        } else {
          assert markets[0] in markets;
        }
      }
    }
  }

  /** The comptroller's `getAccountLiquidity` answer, in mantissa units. */
  datatype Liquidity = Liquidity(error: nat, liquidity: nat, shortfall: nat)

  /** liquidity/shortfall when in shortfall, 999 for liquidity without shortfall,
      and 0 for a failed or erroring read or an empty account. */
  function HealthFactor(read: Fallible<Liquidity>): (hf: real)
    ensures hf >= 0.0
    ensures read.Throws? || read.value.error != 0 ==> hf == 0.0
    ensures read.Ok? && read.value.error == 0 && read.value.shortfall > 0 ==>
      hf == (read.value.liquidity as real) / (read.value.shortfall as real)
    ensures read.Ok? && read.value.error == 0 && read.value.shortfall == 0 ==>
      (hf == 999.0 <==> read.value.liquidity > 0) && (hf == 0.0 <==> read.value.liquidity == 0)
  {
    match read
    case Throws(_) => 0.0
    case Ok(l) =>
      if l.error != 0 then 0.0
      else
        var liquidity := (l.liquidity as real) / MANTISSA;
        var shortfall := (l.shortfall as real) / MANTISSA;
        if shortfall > 0.0 then liquidity / shortfall
        else if liquidity > 0.0 then 999.0
        else 0.0
  }

  /** The comptroller reports liquidity and shortfall exclusively, so an account in
      shortfall reads as health factor 0, the same value as a failed read. */
  lemma ShortfallReadsAsZero(shortfall: nat)
    requires shortfall > 0
    ensures HealthFactor(Ok(Liquidity(0, 0, shortfall))) == 0.0
  {
  }

  /** `getAccountSnapshot`: error code, vToken balance, borrow balance, exchange rate. */
  datatype Snapshot = Snapshot(error: nat, vTokenBalance: nat, borrowBalance: nat, exchangeRate: nat)

  /** The reads `getPositions` makes for one token: the snapshot, and the market
      rate it fetches for the supply and for the borrow position. */
  datatype TokenRead = TokenRead(snapshot: Fallible<Snapshot>, supplyMarket: Fallible<MarketInput>,
                                 borrowMarket: Fallible<MarketInput>)

  predicate HasKind(ps: seq<Position>, kind: PositionKind) {
    exists i :: 0 <= i < |ps| && ps[i].kind == kind
  }

  /** Underlying amount of a vToken balance: bal * exchangeRate / (1e18 * 10^decimals). */
  function SupplyAmount(s: Snapshot, decimals: nat): real {
    (s.vTokenBalance as real) * (s.exchangeRate as real) / (MANTISSA * Unit(decimals))
  }

  /** The positions one token contributes. A snapshot error or a thrown read skips
      the rest of the token; a supply position needs a positive vToken balance and a
      borrow position a positive borrow balance. */
  function TokenPositions(token: Token, read: TokenRead): (ps: seq<Position>)
    ensures |ps| <= 2
    ensures forall i :: 0 <= i < |ps| ==> ps[i].protocol == Venus && ps[i].token == token
    ensures HasKind(ps, SupplyPosition) <==>
      read.snapshot.Ok? && read.snapshot.value.error == 0 && read.snapshot.value.vTokenBalance > 0
      && read.supplyMarket.Ok?
    ensures HasKind(ps, BorrowPosition) <==>
      read.snapshot.Ok? && read.snapshot.value.error == 0 && read.snapshot.value.borrowBalance > 0
      && read.borrowMarket.Ok? && (read.snapshot.value.vTokenBalance > 0 ==> read.supplyMarket.Ok?)
    ensures forall i :: 0 <= i < |ps| && ps[i].kind == SupplyPosition ==>
      ps[i].amount == SupplyAmount(read.snapshot.value, token.decimals)
      && ps[i].apy == MarketRate(token, read.supplyMarket.value).supplyAPY
    ensures forall i :: 0 <= i < |ps| && ps[i].kind == BorrowPosition ==>
      ps[i].amount == FromWei(read.snapshot.value.borrowBalance, token.decimals)
      && ps[i].apy == MarketRate(token, read.borrowMarket.value).borrowAPY
    ensures forall i :: 0 <= i < |ps| ==> ps[i].amountUSD == 0.0 && ps[i].earnedRewards == 0.0
  {
    match read.snapshot
    case Throws(_) => []
    case Ok(s) =>
      if s.error != 0 then []
      else if s.vTokenBalance > 0 && read.supplyMarket.Throws? then []
      else
        var supply :=
          if s.vTokenBalance > 0 then
            [Position(Venus, token, SupplyPosition, SupplyAmount(s, token.decimals), 0.0,
                      MarketRate(token, read.supplyMarket.value).supplyAPY, 0.0)]
          else [];
        var borrow :=
          if s.borrowBalance > 0 && read.borrowMarket.Ok? then
            [Position(Venus, token, BorrowPosition, FromWei(s.borrowBalance, token.decimals), 0.0,
                      MarketRate(token, read.borrowMarket.value).borrowAPY, 0.0)]
          else [];
        var ps := supply + borrow;
        assert |supply| > 0 ==> ps[0] == supply[0];
        assert |borrow| > 0 ==> ps[|supply|] == borrow[0];
        ps
  }

  /** All positions, market by market in table order. */
  function Positions(markets: seq<string>, fetched: string -> TokenRead): (ps: seq<Position>)
    ensures forall i :: 0 <= i < |ps| ==> ps[i].protocol == Venus && ps[i].token.symbol in markets
    decreases |markets|
  {
    if |markets| == 0 then []
    else
      var sym := markets[0];
      var here := if sym in TOKENS && TOKENS[sym].symbol == sym then TokenPositions(TOKENS[sym], fetched(sym)) else [];
      here + Positions(markets[1..], fetched)
  }

  /** `p` is one of the positions the listed market `sym` reports. */
  predicate ReportedBy(p: Position, sym: string, fetched: string -> TokenRead) {
    sym in TOKENS && TOKENS[sym].symbol == sym && p in TokenPositions(TOKENS[sym], fetched(sym))
  }

  /** The positions are exactly those of the listed markets: every position a
      listed market reports is present, and every position comes from one. */
  lemma {:induction false} PositionsComplete(markets: seq<string>, fetched: string -> TokenRead)
    ensures forall sym, p :: sym in markets && ReportedBy(p, sym, fetched) ==> p in Positions(markets, fetched)
    ensures forall p :: p in Positions(markets, fetched) ==> exists sym :: sym in markets && ReportedBy(p, sym, fetched)
    decreases |markets|
  {
    if |markets| > 0 {
      PositionsComplete(markets[1..], fetched);
      forall sym | sym in markets ensures sym == markets[0] || sym in markets[1..] {}
      forall p | p in Positions(markets, fetched)
        ensures exists sym :: sym in markets && ReportedBy(p, sym, fetched)
      {
        if p in Positions(markets[1..], fetched) {
          var sym :| sym in markets[1..] && ReportedBy(p, sym, fetched);
          assert sym in markets;
        } else {
          assert markets[0] in markets;
        }
      }
    }
  }

  // ---- write calls ----

  /** Supply: enter the market, then mint with native value for BNB, or
      approve-if-short and mint for an ERC-20. */
  function SupplyPlan(symbol: string, needsApproval: bool): (plan: seq<ChainCall>)
    ensures |plan| > 0 && plan[0] == EnterMarkets
    ensures Approve in plan <==> symbol != "BNB" && needsApproval
  {
    if symbol == "BNB" then [EnterMarkets, MintNative]
    else [EnterMarkets] + ApproveThen(needsApproval, [Mint])
  }

  /** Repay: native value for BNB, approve-if-short then repay for an ERC-20. */
  function RepayPlan(symbol: string, needsApproval: bool): (plan: seq<ChainCall>)
    ensures Approve in plan <==> symbol != "BNB" && needsApproval
  {
    if symbol == "BNB" then [RepayNative]
    else ApproveThen(needsApproval, [RepayBorrow])
  }

  /** The chain calls each write makes, given the allowance test's answer. */
  function WritePlan(action: ActionKind, symbol: string, needsApproval: bool): (plan: seq<ChainCall>)
    requires !action.OtherAction?
    ensures |plan| >= 1
    ensures Approve in plan <==>
      (action == Supply || action == Repay) && symbol != "BNB" && needsApproval
  {
    match action
    case Supply => SupplyPlan(symbol, needsApproval)
    case Withdraw => [RedeemUnderlying]
    case Borrow => [VenusBorrow]
    case Repay => RepayPlan(symbol, needsApproval)
    case Claim => [ClaimVenus]
  }

  /** supply / withdraw / borrow / repay on a token: throw without a signer or for
      an unsupported token, before any chain call; otherwise run the plan. */
  function TokenWrite(action: ActionKind, symbol: string, amount: real, env: ChainEnv): (s: Step)
    requires action in {Supply, Withdraw, Borrow, Repay}
    ensures !env.wallet ==> s == Threw(NO_WALLET)
    ensures env.wallet && symbol !in VENUS_MARKETS ==> s == Threw(UnsupportedToken(symbol))
    ensures env.wallet && symbol in VENUS_MARKETS ==>
      && s.Returned?
      && s.result.action == action && s.result.token == symbol
      && s.result.amount == amount && s.result.protocol == Venus
      && (s.result.status == Failed ==> s.result.hash == "")
      && (Approve in s.calls ==>
            (action == Supply || action == Repay) && symbol != "BNB"
            && NeedsApproval(env.allowance, ToWei(amount, TOKENS[symbol].decimals)))
      && (s.result.status == Confirmed ==>
            (Approve in s.calls <==>
               (action == Supply || action == Repay) && symbol != "BNB"
               && NeedsApproval(env.allowance, ToWei(amount, TOKENS[symbol].decimals))))
  {
    if !env.wallet then Threw(NO_WALLET)
    else if symbol !in VENUS_MARKETS then Threw(UnsupportedToken(symbol))
    else
      var token := TOKENS[symbol];
      var needsApproval := NeedsApproval(env.allowance, ToWei(amount, token.decimals));
      var plan := WritePlan(action, symbol, needsApproval);
      var s := RunPlan(plan, env, Venus, action, symbol, amount);
      assert s.calls <= plan;
      s
  }

  /** claimVenus: needs only a signer; the result names XVS with amount 0. */
  function ClaimRewards(env: ChainEnv): (s: Step)
    ensures !env.wallet ==> s == Threw(NO_WALLET)
    ensures env.wallet ==>
      && s.Returned?
      && s.result.action == Claim && s.result.token == "XVS"
      && s.result.amount == 0.0 && s.result.protocol == Venus
      && (s.result.status == Failed <==> env.failure.Some? && env.failure.value.step == 0)
      && (s.result.status == Failed ==> s.result.hash == "")
  {
    if !env.wallet then Threw(NO_WALLET)
    else RunPlan(WritePlan(Claim, "XVS", false), env, Venus, Claim, "XVS", 0.0)
  }
}
